=== FILE: README.md ===
# Todo app persistence and recovery, modelled in Dafny

This project models the persistence and recovery core of a small browser todo app. That core has four parts:

- **Primary store.** The todo list is saved as a `{todos, lastSaved, version: "1.0"}` record. The record goes to the `todos` slot and an identical copy to `todos_backup`, and the stamp goes to `lastSave`. The user's name is kept in `userName`.
  - Loading accepts either this record or a legacy bare array.
  - It falls back to the backup only when the primary slot is absent or holds neither shape.
- **Trash store.** The recently-deleted log is kept under `recentlyDeletedTodos`.
  - Add, restore, permanent delete and count first run the read path. The read path drops entries seven days old or older, or without a readable stamp, writes the shortened log back only when it dropped something, and returns the rest newest first.
  - Adding stamps the entry with `deletedAt`. It does nothing when the id is already logged, and keeps at most 50 entries, newest first.
  - Restore and permanent delete remove the id from the log.
  - Clear only removes the log's key.
  - Cleanup first parses the stored log and stops with zero when it is absent, not a list or unparseable. Otherwise it runs the read path and reports how many entries it dropped.
- **List screen.** These are pure list operations whose result the screen then saves: add, toggle, edit, delete, restore, clear completed, the All/Active/Completed tabs and the completed count. Deleting and clearing also hand the removed todos to the trash store.
- **Trash panel.**
  - The "deleted … ago" and "expires in … days" arithmetic.
  - The count badge, capped at "99+".
  - Restore All: a loop that restores each listed entry and hands every restored todo to the list screen. The loop is stated once for any restore step (`RestoreAllWith`) and then applied to the trash store's restore (`RestoreAll`).

Each operation is a pure Dafny function over an explicit store. Anything the browser supplies is a parameter:

- **Storage** is a `map<string, string>`. A write the browser refuses (quota, storage disabled) is described by an `accepts` predicate over the store, the key and the value.
- **`JSON.parse` / `JSON.stringify`** are a pair of functions over an abstract JSON value. Every round-trip law assumes that parsing gives back what stringifying wrote (`Faithful`).
- **The clock** supplies `Date.now()`, `toISOString` and `Date.parse`. An unparseable date, which is NaN in the program, is `None`.

Modules:

| file | module | models |
|---|---|---|
| `types.dfy` | `Types` | the `Todo` and `DeletedTodo` records, the clock |
| `json.dfy`, `storage.dfy` | `Json`, `Storage` | parsed JSON shapes, the key/value store and its keys |
| `seqs.dfy`, `text.dfy`, `wrappers.dfy` | `Seqs`, `Text`, `Wrappers` | `filter`, a stable descending sort, `trim`, decimal digits |
| `trash_store.dfy`, `trash_laws.dfy` | `TrashStore`, `TrashLaws` | the trash store and its laws |
| `todo_store.dfy`, `todo_laws.dfy` | `TodoStore`, `TodoLaws` | the primary store and its laws |
| `todo_list.dfy`, `todo_list_laws.dfy` | `TodoList`, `TodoListLaws` | the list screen's operations and their laws |
| `trash_panel.dfy`, `trash_panel_laws.dfy` | `TrashPanel`, `TrashPanelLaws` | the trash panel and its laws |

The model follows the code where its behaviour is surprising:

- **A primary slot that fails to parse** ends the load with an empty list. The backup is not tried, because the exception skips straight to the catch block.
- **A primary slot holding `null`** throws when `.todos` is read, so it also gives an empty list.
- **A save that fails part-way** keeps the writes made before the failure. For example, the primary slot may be updated while the backup is not.
- **A refused write-back on the trash read path** lands in its catch block, which removes the whole log.
- **Restore All reloads the panel's list** after the loop. That reload is the read path, whose laws are stated on `TrashStore.ReadTrash`, so `RestoreAll` ends with the loop and leaves the reload to the next read.

The single-entry restore button (`handleRestore`) performs the same two steps as one iteration of Restore All: the store's restore, then the list's `restoreTodo`.

## Model

| member | source | states |
|---|---|---|
| Types.WithDeletedAt | src/utils/recentlyDeletedStorage.ts:53-56 | a trash entry keeps the todo's id and carries the given deletion stamp |
| Types.WithoutDeletedAt | src/utils/recentlyDeletedStorage.ts:85-91 | the restored todo keeps the entry's id |
| Types.StripUndoesStamp | src/utils/recentlyDeletedStorage.ts:85-91 | restoring an entry gives back exactly the todo that was stamped, field for field |
| Types.CompletedTodos | src/components/TodoUI.tsx:157 | exactly the completed todos, as an order-preserving subsequence |
| Text.Trim | src/components/TodoUI.tsx:50 | the result is the input without leading and trailing ECMAScript white space; it is empty exactly when the input is all white space, and otherwise neither of its ends is white space |
| Text.TrimIdempotent | src/components/TodoUI.tsx:53 | trimming trimmed text changes nothing |
| Text.Decimal | src/components/NavBarUI.tsx:154 | a number prints as its shortest decimal digit string, and those digits read back as the number |
| TrashStore.FilterRecent | src/utils/recentlyDeletedStorage.ts:13-23 | for an array, the kept entries are exactly those with a non-empty parseable stamp less than seven days old, in order; kept plus expired equals all; a non-array gives nothing; distinct ids stay distinct |
| TrashStore.NewestFirst | src/utils/recentlyDeletedStorage.ts:36-38 | a permutation of the entries, sorted by deletion time with the newest first |
| TrashStore.ReadTrash | src/utils/recentlyDeletedStorage.ts:26-44 | returns only recent entries, newest first, and touches only the trash key. Absent or non-list data gives nothing. A parse error removes the key. The log is rewritten only when entries expired, and removed when that write is refused |
| TrashStore.Prepend | src/utils/recentlyDeletedStorage.ts:57-58 | the new entry comes first, followed by the current entries, at most 50 in all |
| TrashStore.AddDeleted | src/utils/recentlyDeletedStorage.ts:47-65 | an already-logged id is a successful no-op. Otherwise the read log, with the stamped entry in front and capped at 50, is written, and success means the write was accepted |
| TrashStore.ClearDeleted | src/utils/recentlyDeletedStorage.ts:68-76 | always succeeds, and removes the trash key and nothing else |
| TrashStore.WithoutId | src/utils/recentlyDeletedStorage.ts:82 | exactly the entries with another id, in order, each as many times as in the log; the id no longer occurs |
| TrashStore.RestoreDeleted | src/utils/recentlyDeletedStorage.ts:79-97 | success iff the log without the id was written; on success, the todo is the entry without its stamp |
| TrashStore.PermanentlyDelete | src/utils/recentlyDeletedStorage.ts:100-110 | success iff the read log without the id was written |
| TrashStore.CountDeleted | src/utils/recentlyDeletedStorage.ts:113-115 | exactly the number of entries the read path returns, leaving the store as the read path leaves it; zero without a stored list; never more than the stored entries; at most 50 for a well-formed log |
| TrashStore.CleanupExpired | src/utils/recentlyDeletedStorage.ts:118-126 | stored length before the read path minus the length after it; zero, with nothing changed, when the slot is absent, not a list, or does not parse |
| TrashLaws.WrittenLogReadsBack | src/utils/recentlyDeletedStorage.ts:28-31 | a log written through the codec is found again as the same entries |
| TrashLaws.ReadOfRecentLog | src/utils/recentlyDeletedStorage.ts:32-38 | a log with nothing expired is returned sorted and not rewritten |
| TrashLaws.ReadIsIdempotent | src/utils/recentlyDeletedStorage.ts:26-44 | reading twice gives what reading once gave, and the store does not change again |
| TrashLaws.ReadLeavesNoExpired | src/utils/recentlyDeletedStorage.ts:32-35 | after a read, the stored log holds no expired entry |
| TrashLaws.ReadOfWellFormedLog | src/utils/recentlyDeletedStorage.ts:26-44 | reading a log with distinct ids and at most 50 entries keeps it so, and returns distinct ids |
| TrashLaws.PrependKeepsDistinct | src/utils/recentlyDeletedStorage.ts:50-58 | prepending an unlogged id keeps the ids distinct |
| TrashLaws.AddKeepsLogWellFormed | src/utils/recentlyDeletedStorage.ts:47-65 | adding keeps the log's ids distinct and its size at most 50 |
| TrashLaws.RestoreKeepsLogWellFormed | src/utils/recentlyDeletedStorage.ts:79-97 | restoring keeps the log well formed |
| TrashLaws.PurgeKeepsLogWellFormed | src/utils/recentlyDeletedStorage.ts:100-110 | permanent delete keeps the log well formed |
| TrashLaws.FreshEntryIsRecent | src/utils/recentlyDeletedStorage.ts:53-56 | an entry stamped now passes the expiry filter |
| TrashLaws.MemberHasKey | src/utils/recentlyDeletedStorage.ts:50 | a logged entry's id is found by the duplicate check |
| TrashLaws.AddIsIdempotent | src/utils/recentlyDeletedStorage.ts:47-65 | adding the same todo again at the same instant reports success and changes nothing |
| TrashLaws.AddNewIsIdempotent | src/utils/recentlyDeletedStorage.ts:53-59 | the log a fresh add writes is read back unchanged and already holds the id |
| TrashLaws.RecentEntryIsRead | src/utils/recentlyDeletedStorage.ts:26-38 | with unlimited storage, every recent entry of a freshly written log is among the entries the next read returns |
| TrashLaws.ReadKeepsRecent | src/utils/recentlyDeletedStorage.ts:26-38 | with unlimited storage, the read path returns as many entries as the stored list holds minus the expired ones |
| TrashLaws.CountIsRecentStored | src/utils/recentlyDeletedStorage.ts:113-115 | with unlimited storage, the count is the stored entries minus the expired ones |
| TrashLaws.NewestFirstOfSorted | src/utils/recentlyDeletedStorage.ts:36-38 | sorting a log already newest first leaves it as it is |
| TrashLaws.PrependMembers | src/utils/recentlyDeletedStorage.ts:57-58 | a prepended log holds only the new entry and entries of the old log, and so only their ids |
| TrashLaws.PrependNewest | src/utils/recentlyDeletedStorage.ts:57-58 | a recent entry no older than the rest, put in front of a recent newest-first log, keeps it recent and newest first |
| TrashLaws.ReadOfWrittenNewestLog | src/utils/recentlyDeletedStorage.ts:26-38 | a recent log written newest first is read back exactly as written |
| TrashLaws.AddNewGoesFirst | src/utils/recentlyDeletedStorage.ts:47-65 | with unlimited storage, a todo new to the log is the first entry of the next read, followed by the entries read before, at most 50 in all |
| TrashLaws.AddedTodoIsRecoverable | src/utils/recentlyDeletedStorage.ts:47-65 | with unlimited storage, a todo new to the log is listed by the next read made at any time in the following seven days (later additions can still evict it through the 50-entry cap) |
| TrashLaws.RestoredIdLeavesLog | src/utils/recentlyDeletedStorage.ts:79-83 | after a successful restore, the read path no longer lists the id |
| TrashLaws.PurgedIdLeavesLog | src/utils/recentlyDeletedStorage.ts:100-104 | after a successful permanent delete, the read path no longer lists the id |
| TrashLaws.RemovedIdLeavesLog | src/utils/recentlyDeletedStorage.ts:82-83 | writing back the read entries without an id leaves a log whose next read lacks it |
| TrashLaws.CleanupCountsExpired | src/utils/recentlyDeletedStorage.ts:118-126 | with unlimited storage, cleanup reports exactly the number of expired entries |
| TrashLaws.ClearEmptiesLog | src/utils/recentlyDeletedStorage.ts:68-76 | after clearing, the count is zero |
| TodoStore.SaveTodos | src/utils/todoStorage.ts:8-28 | success iff all three writes are accepted, each by the store the earlier writes left, and then the primary slot and the backup hold the record and `lastSave` its stamp. A refused write leaves exactly the writes before it: nothing, the primary slot, or the primary slot and `lastSave`. Unlimited storage always succeeds |
| TodoStore.DecodeSlot | src/utils/todoStorage.ts:36-48 | an absent slot gives nothing. A parse error or `null` throws. A bare array is returned, and so is an object's `todos` when it is an array. Every other value gives nothing, so the caller goes on to the backup |
| TodoStore.DecodeBackupAsWritten | src/utils/todoStorage.ts:52-62 | an absent backup gives nothing; a parse error or `null` throws; an array is returned, and so is any truthy `todos` field, array or not; every other value gives nothing |
| TodoStore.LoadTodosAsWritten | src/utils/todoStorage.ts:31-70 | a decodable primary slot decides the result; a primary that throws gives the empty list; otherwise the backup's value is returned when it has one, and the empty list when not |
| TodoStore.LoadTodos | src/utils/todoStorage.ts:31-70 | a decodable primary slot wins. A non-empty result comes from the primary slot, or from the backup when the primary is absent or shapeless |
| TodoStore.SaveUserName | src/utils/todoStorage.ts:73-82 | success iff the write was accepted, and the name is stored exactly then |
| TodoStore.LoadUserName | src/utils/todoStorage.ts:85-96 | a name is returned iff the key is present, and it is the stored text, possibly empty |
| TodoStore.ClearAllData | src/utils/todoStorage.ts:99-109 | removes the four app keys and leaves every other key untouched |
| TodoStore.GetStorageStats | src/utils/todoStorage.ts:112-129 | nothing (the program's `null`) iff the loaded value is not an array, since `filter` then throws. Otherwise the counts are the loaded list's length and its number of completed todos, the name is the loaded name, `hasUser` iff it is non-empty, and the stamp is present iff `lastSave` holds non-empty text |
| TodoLaws.RecordDecodes | src/utils/todoStorage.ts:44-47 | the saved record decodes to its todos |
| TodoLaws.SaveWritesRecordTwice | src/utils/todoStorage.ts:10-20 | after a save, primary and backup hold the same text, which decodes to the list, the stamp in `lastSave` and version "1.0" |
| TodoLaws.SaveThenLoad | src/utils/todoStorage.ts:8-70 | loading right after a successful save gives the saved list |
| TodoLaws.BackupRescuesLostPrimary | src/utils/todoStorage.ts:52-61 | if the primary slot is lost after a save, the backup alone gives the list back, through both the corrected loader and the loader as written |
| TodoLaws.LegacyArrayIsReturned | src/utils/todoStorage.ts:40-43 | a bare array in the primary slot is returned unchanged |
| TodoLaws.BackupIgnoredWhenPrimaryDecides | src/utils/todoStorage.ts:36-52 | when the primary slot decodes or throws, no change to the backup alters the result |
| TodoLaws.CorruptPrimaryGivesEmpty | src/utils/todoStorage.ts:37 | a primary slot that fails to parse gives the empty list whatever the backup holds |
| TodoLaws.NothingStoredGivesEmpty | src/utils/todoStorage.ts:68-69 | with neither slot present, loading gives the empty list |
| TodoLaws.BackupReadLikePrimary | src/utils/todoStorage.ts:52-61 | the backup is decoded by the same rule as the primary slot |
| TodoLaws.LoadAgreesWithAsWritten | src/utils/todoStorage.ts:31-70 | wherever the code as written returns an array, the corrected loader returns the same list |
| TodoLaws.BackupTodosNotCheckedAsWritten | src/utils/todoStorage.ts:59-60 | a backup `{"todos":1}` makes the code as written return a non-array |
| TodoLaws.UserNameRoundTrip | src/utils/todoStorage.ts:73-96 | saving a name and loading it gives the name back |
| TodoLaws.ClearAllDataResets | src/utils/todoStorage.ts:99-129 | after a reset the stats report no user, no todo and no stamp, and the trash slot is untouched |
| TodoList.AddTodo | src/components/TodoUI.tsx:48-59 | blank input leaves the list unchanged; otherwise exactly one new, open, trimmed todo with the clock's id and stamp is appended |
| TodoList.Flip | src/components/TodoUI.tsx:64-70 | completion is flipped and the completion stamp is present exactly when completed; id, text and creation stamp stay |
| TodoList.ToggleTodo | src/components/TodoUI.tsx:63-72 | todos with the id are flipped and all others stay as they were, position by position |
| TodoList.SaveEdit | src/components/TodoUI.tsx:109-117 | blank text cancels; otherwise only the edited todo's text changes, to the trimmed text |
| TodoList.DeleteTodo | src/components/TodoUI.tsx:95 | exactly the todos with another id remain, in order, each as many times as in the list |
| TodoList.FindTodo | src/components/TodoUI.tsx:84 | a todo is found iff one with the id is listed, and it is the first todo with that id |
| TodoList.DeleteToTrash | src/components/TodoUI.tsx:83-102 | a listed todo is handed to the trash store whatever it returns, and the list loses the id; an unlisted id leaves the store alone |
| TodoList.RestoreTodo | src/components/TodoUI.tsx:141-147 | appends the todo iff its id is not listed; afterwards the id is listed |
| TodoList.ClearCompleted | src/components/TodoUI.tsx:165 | exactly the open todos remain, in order |
| TodoList.TrashEach | src/components/TodoUI.tsx:160-162 | handing no todos leaves the store as it was, and no key but the trash key ever changes |
| TodoList.ClearCompletedToTrash | src/components/TodoUI.tsx:156-166 | the list keeps the open todos, the completed ones go to the trash one by one in list order, and with nothing completed nothing changes; `TodoListLaws.ClearedTodosAreRecoverable` states what the trash then lists |
| TodoList.Visible | src/components/TodoUI.tsx:168-172 | All shows the list; Active shows exactly the open todos and Completed exactly the completed ones, as order-preserving subsequences |
| TodoList.CompletedCount | src/components/TodoUI.tsx:174 | the size of the Completed tab; with the Active tab it adds up to the whole list |
| TodoListLaws.AddKeepsCoherent | src/components/TodoUI.tsx:48-59 | adding keeps ids distinct and stamps consistent, provided the clock's id is new |
| TodoListLaws.AddedTextIsTrimmed | src/components/TodoUI.tsx:50-53 | the added text is non-empty, already trimmed, and the todo is open |
| TodoListLaws.ToggleKeepsCoherent | src/components/TodoUI.tsx:61-72 | toggling keeps ids distinct and completion stamps consistent |
| TodoListLaws.ToggleTwice | src/components/TodoUI.tsx:63-72 | toggling twice restores every completion state; an open todo comes back exactly; a completed one gets the second stamp |
| TodoListLaws.SaveEditKeepsCoherent | src/components/TodoUI.tsx:109-117 | editing keeps the invariant |
| TodoListLaws.DeleteKeepsCoherent | src/components/TodoUI.tsx:95 | deleting keeps the invariant |
| TodoListLaws.ClearKeepsCoherent | src/components/TodoUI.tsx:165 | clearing keeps the invariant, is idempotent, and leaves no completed todo |
| TodoListLaws.RestoreKeepsCoherent | src/components/TodoUI.tsx:141-147 | restoring a well-stamped todo keeps the invariant; no id is ever duplicated |
| TodoListLaws.DeleteRemovesOne | src/components/TodoUI.tsx:95 | with distinct ids, deleting removes exactly the one position |
| TodoListLaws.DeleteThenRestore | src/components/TodoUI.tsx:95 | delete followed by restore gives back a permutation of the list, with the todo moved last |
| TodoListLaws.DeleteShrinksByOne | src/components/TodoUI.tsx:95 | deleting a listed id shortens a distinct-id list by exactly one |
| TodoListLaws.DeletedTodoIsRecoverable | src/components/TodoUI.tsx:83-102 | with unlimited storage, a deleted todo leaves the list, and the next read of the trash at any time in the following seven days lists it |
| TodoListLaws.TrashEachKeepsLogWellFormed | src/components/TodoUI.tsx:160-162 | handing any number of todos to the trash keeps its log well formed |
| TodoListLaws.ClearToTrashKeepsInvariants | src/components/TodoUI.tsx:156-166 | clearing completed keeps both the list invariant and the trash log well formed |
| TodoListLaws.StampedNewestFirst | src/components/TodoUI.tsx:160-162 | the todos handed over, stamped, in reverse order: the last handed over first |
| TodoListLaws.TrashEachStepPremises | src/components/TodoUI.tsx:160-162 | after one hand-over the remaining ids are still new to the log and no entry is stamped later than now |
| TodoListLaws.TrashEachListsNewestFirst | src/components/TodoUI.tsx:160-162 | with unlimited storage and new ids, the next read lists the handed todos newest first in front of the earlier entries, cut to 50 |
| TodoListLaws.StampedAfterPrepend | src/utils/recentlyDeletedStorage.ts:57-58 | cutting to 50 after each hand-over is the same as one cut of the whole |
| TodoListLaws.StampedIsListed | src/utils/recentlyDeletedStorage.ts:57-58 | each of the last 50 todos handed over is within the first 50 entries |
| TodoListLaws.ClearedTodosAreRecoverable | src/components/TodoUI.tsx:156-166 | with unlimited storage and new ids, after clearing completed todos the next read lists each of the last 50 cleared, stamped with the clearing time |
| TrashPanel.Elapsed | src/components/NavBarUI.tsx:88-107 | a parseable stamp is classified by which range its age falls in, with a count n such that the age lies between n and n+1 units; an unparseable one is NaN days |
| TrashPanel.AgoText | src/components/NavBarUI.tsx:94-103 | a count is shown as its digits followed by exactly its unit's word, plural iff the count is not one, and "ago"; "Just now" shows no digits |
| TrashPanel.FormatDeletionTime | src/components/NavBarUI.tsx:88-107 | "Just now" under a minute; otherwise the text shows, in shortest decimal digits, the whole minutes under an hour, the whole hours under a day and the whole days beyond, each with its own unit word and plural; "NaN days ago" for a bad stamp |
| TrashPanel.DaysUntilExpiry | src/components/NavBarUI.tsx:110-119 | never negative. It is positive iff the entry is younger than seven days, and at most 7 for a past stamp. It equals seven minus the whole days elapsed. A bad stamp gives NaN |
| TrashPanel.ExpiryNote | src/components/NavBarUI.tsx:222-229 | "expires in" iff the day count is a number above zero |
| TrashPanel.ExpiryText | src/components/NavBarUI.tsx:222-229 | "Expires today" for that note; otherwise "Expires in ", the day count's digits, which read back as the count, and "day", in the plural iff the count is not one |
| TrashPanel.ExpiresInText | src/components/NavBarUI.tsx:224 | "Expires in ", the count's digits, then "day" in the plural iff the count is not one |
| TrashPanel.Badge | src/components/NavBarUI.tsx:152-155 | hidden iff the count is zero; "99+" iff above 99; otherwise the count's one or two digits |
| TrashPanel.RestoreWith | src/components/NavBarUI.tsx:58-67 | for any restore step, hands on no more todos than there are entries, and none without a listener |
| TrashPanel.RestoreEach | src/components/NavBarUI.tsx:58-67 | the same bounds when the step is the trash store's restore |
| TrashPanel.RestoreEachHandsEntries | src/components/NavBarUI.tsx:61-64 | every todo handed on is one of the listed entries with its deletion stamp removed |
| TrashPanel.RestoreAllWith | src/components/NavBarUI.tsx:58-67 | for any restore step, the loop reports as many restores as it hands todos on, and computes the reference fold |
| TrashPanel.RestoreAll | src/components/NavBarUI.tsx:56-72 | the reported count is the number of todos handed on, and the loop computes the reference restore-each fold |
| TrashPanel.ListAfterRestoresAsWritten | src/components/TodoUI.tsx:141-147 | after Restore All, the list is either unchanged or the held list plus a single handed todo |
| TrashPanel.ListAfterRestores | src/components/TodoUI.tsx:141-147 | each restore extends the previous result: the held list stays a prefix, every handed id is listed, nothing else is added |
| TrashPanelLaws.AgoTextInjective | src/components/NavBarUI.tsx:94-103 | different classifications give different texts |
| TrashPanelLaws.ExpiryTextInjective | src/components/NavBarUI.tsx:222-229 | different expiry notes give different texts |
| TrashPanelLaws.ShowsCountFixesUnit | src/components/NavBarUI.tsx:94-103 | a text shows one count in one unit only |
| TrashPanelLaws.ListedEntryNeverExpiresToday | src/components/NavBarUI.tsx:198-229 | every entry the read path lists shows "expires in", never "Expires today", and 1 to 7 days for a stamp not in the future |
| TrashPanelLaws.AgoAndExpiryAgree | src/components/NavBarUI.tsx:101-115 | deleted n whole days ago means expiring in 7 - n days, floored at zero |
| TrashPanelLaws.BadgeDistinguishes | src/components/NavBarUI.tsx:152-155 | equal badges mean equal counts, except that all counts above 99 share one badge |
| TrashPanelLaws.RestoreShrinksLog | src/utils/recentlyDeletedStorage.ts:79-97 | a restore never brings an entry into the listed log |
| TrashPanelLaws.RestoreAllEmptiesRestored | src/components/NavBarUI.tsx:58-67 | with unlimited storage, no id of a restored entry is listed afterwards |
| TrashPanelLaws.AbsentAfterRestore | src/utils/recentlyDeletedStorage.ts:79-97 | an unlisted id stays unlisted after a restore |
| TrashPanelLaws.StaysAbsent | src/components/NavBarUI.tsx:61-67 | an unlisted id stays unlisted through the whole loop |
| TrashPanelLaws.RestoreAllHandsEverything | src/components/NavBarUI.tsx:61-67 | with unlimited storage and a listener, every entry's todo is handed on, in order |
| TrashPanelLaws.RestoreAllLosesTodosAsWritten | src/components/NavBarUI.tsx:61-67 | restoring two new todos at once keeps only the second, as written |
| TrashPanelLaws.RestoresOfNewIdsAppend | src/components/TodoUI.tsx:141-147 | corrected, two restores of new ids append both todos in order |
| TrashPanelLaws.RestoresKeepCoherent | src/components/TodoUI.tsx:141-147 | the corrected restores keep ids distinct and stamps consistent |
| TrashPanelLaws.RestoreAllReachesList | src/components/NavBarUI.tsx:56-67 | corrected, with unlimited storage, every restored entry ends up in the list and out of the trash |

## Left out

- Browser I/O is not modelled directly. Storage is a map, a refused write is the `accepts` predicate, and `getItem`/`removeItem` never throw. The app's other files (name screen, routing, styles, `formatDate`) are not part of this model.
- `console` logging, `window.confirm` (every dialog is taken as confirmed) and the success `alert` are left out. For the alert, `RestoreAll` returns the count it would show.
- React state plumbing is left out: animation sets, the 300 ms timeouts, edit mode and click-outside handling, and keyboard shortcuts. Delete's list update runs at once, from the list the click saw.
- The hourly `setInterval` refresh in the panel is left out. It only calls the count operation, which is modelled.
- The shapes of individual stored records are not checked. Parsed JSON is abstract, and an array of non-todos is taken as todos, as the TypeScript types assume.
- `toISOString` can throw for an out-of-range time; this is not modelled. The clock is a parameter.
- App's wiring of the panel's callback through a ref is left out. The panel's `listening` flag stands for it. If the list screen is not mounted, the app drops the handed todo silently, and this is not modelled.
- TrashPanel.Elapsed: computes in whole milliseconds with floor division, where the program computes `diffInHours * 60` in floating point. Rounding at exact minute boundaries may differ.
- `getStorageStats` wraps the stamp in a `Date`; `Stats.lastSave` keeps the stored text, since dates are not modelled beyond the clock.
- TrashPanel.ListAfterRestoresAsWritten: its contract only bounds the result. The exact loss is shown by `TrashPanelLaws.RestoreAllLosesTodosAsWritten`.

## Findings

| source | as written | input that shows it | evidently intended | confidence | as-written member | corrected member |
|---|---|---|---|---|---|---|
| src/utils/todoStorage.ts:59-60 | the backup branch returns `parsedBackup.todos` whenever it is truthy, without the array check the primary slot gets | no primary slot, backup slot `{"todos":1}`: the load returns the number 1 as the todo list | decode the backup by the same two-shape rule as the primary slot | not executed | TodoLaws.BackupTodosNotCheckedAsWritten | TodoStore.LoadTodos |
| src/components/NavBarUI.tsx:61-67 | Restore All calls the list screen's `restoreTodo` once per entry in one handler; each call checks and extends the list captured when the button was pressed, and replaces the screen's list | empty list, trash entries with ids 1 and 2: only the todo with id 2 ends up in the list, while both leave the trash | every restored todo joins the list | not executed | TrashPanelLaws.RestoreAllLosesTodosAsWritten | TrashPanel.ListAfterRestores |

=== FILE: json.dfy ===
/**
 Parsed JSON, as far as the stores inspect it, and `JSON.parse`/`JSON.stringify`
 as a pair of functions. Array elements are already decoded records: individual
 records are not validated by the program, so the model does not look inside them.
 */
module Json {
  import opened Wrappers

  datatype Json<E> =
    | Null
      /** a boolean, number or string; only its truthiness matters here */
    | Scalar(truthy: bool)
    | Array(items: seq<E>)
      /** an object; only the fields the saved todo record uses are kept */
    | Object(todos: Option<Json<E>>, lastSaved: Option<string>, version: Option<string>)

  /** JavaScript truthiness of a parsed value. */
  predicate Truthy<E>(j: Json<E>) {
    match j
    case Null => false
    case Scalar(b) => b
    case Array(_) => true
    case Object(_, _, _) => true
  }

  /** `parse` is `JSON.parse`, None when it throws; `stringify` is `JSON.stringify`. */
  datatype Codec<!E> = Codec(parse: string -> Option<Json<E>>, stringify: Json<E> -> string)

  /** Parsing what was stringified gives the value back, and stringified text is never empty. */
  ghost predicate Faithful<E(!new)>(c: Codec<E>) {
    forall j :: c.stringify(j) != "" && c.parse(c.stringify(j)) == Some(j)
  }
}

=== FILE: seqs.dfy ===
/**
 Sequence utilities shared by both stores and the list screen: the order-preserving
 filter behind every `Array.prototype.filter` call, the subsequence relation it
 establishes, uniqueness of a key along a sequence, and the stable descending sort
 behind `Array.prototype.sort` with a numeric comparator.
 */
module Seqs {

  /** `r` can be obtained from `s` by deleting elements, keeping the order of the rest. */
  ghost predicate IsSubsequence<T>(r: seq<T>, s: seq<T>)
    decreases |s|
  {
    r == [] || (s != [] && ((r[0] == s[0] && IsSubsequence(r[1..], s[1..])) || IsSubsequence(r, s[1..])))
  }

  /** No two positions of `s` carry the same key. */
  ghost predicate DistinctBy<T>(s: seq<T>, key: T -> int) {
    forall i, j | 0 <= i < j < |s| :: key(s[i]) != key(s[j])
  }

  /** Some element of `s` carries key `k` (JavaScript's `some(x => key(x) === k)`). */
  predicate HasKey<T>(s: seq<T>, key: T -> int, k: int) {
    exists i | 0 <= i < |s| :: key(s[i]) == k
  }

  /** Sequences with the same elements carry the same keys. */
  lemma HasKeyOfSameElements<T>(a: seq<T>, b: seq<T>, key: T -> int, k: int)
    requires forall x :: x in a <==> x in b
    ensures HasKey(a, key, k) <==> HasKey(b, key, k)
  {
    if HasKey(a, key, k) {
      var i :| 0 <= i < |a| && key(a[i]) == k;
      assert a[i] in b;
      var j :| 0 <= j < |b| && b[j] == a[i];
    }
    if HasKey(b, key, k) {
      var i :| 0 <= i < |b| && key(b[i]) == k;
      assert b[i] in a;
      var j :| 0 <= j < |a| && a[j] == b[i];
    }
  }

  /** The elements of `s` that satisfy `keep`, in their original order. */
  function Filter<T(!new)>(s: seq<T>, keep: T -> bool): (r: seq<T>)
    ensures |r| <= |s|
    ensures forall x :: x in r <==> x in s && keep(x)
    ensures |r| == |s| <==> forall i | 0 <= i < |s| :: keep(s[i])
    ensures (forall i | 0 <= i < |s| :: keep(s[i])) ==> r == s
    ensures IsSubsequence(r, s)
  {
    if s == [] then []
    else if keep(s[0]) then [s[0]] + Filter(s[1..], keep)
    else Filter(s[1..], keep)
  }

  /** A filter keeps every copy of a kept value and no copy of a rejected one. */
  lemma {:induction false} FilterCounts<T(!new)>(s: seq<T>, keep: T -> bool)
    ensures forall x :: multiset(Filter(s, keep))[x] == if keep(x) then multiset(s)[x] else 0
  {
    if s != [] {
      FilterCounts(s[1..], keep);
      assert s == [s[0]] + s[1..];
    }
  }

  /** Every element lands on exactly one side of a filter and of its complement. */
  lemma {:induction false} FilterPartition<T(!new)>(s: seq<T>, keep: T -> bool, drop: T -> bool)
    requires forall x :: drop(x) == !keep(x)
    ensures |Filter(s, keep)| + |Filter(s, drop)| == |s|
  {
    if s != [] {
      FilterPartition(s[1..], keep, drop);
    }
  }

  /** A filter that rejects exactly one position removes exactly that position. */
  lemma {:induction false} FilterRemovesOne<T(!new)>(s: seq<T>, keep: T -> bool, i: int)
    requires 0 <= i < |s| && !keep(s[i])
    requires forall k | 0 <= k < |s| && k != i :: keep(s[k])
    ensures Filter(s, keep) == s[..i] + s[i + 1..]
    decreases |s|, 1
  {
    if i == 0 {
      FilterDropsHead(s, keep);
    } else {
      FilterRemovesOneLater(s, keep, i);
    }
  }

  lemma FilterDropsHead<T(!new)>(s: seq<T>, keep: T -> bool)
    requires 0 < |s| && !keep(s[0])
    requires forall k | 0 < k < |s| :: keep(s[k])
    ensures Filter(s, keep) == s[1..]
  {
    var tail := s[1..];
    forall k | 0 <= k < |tail| ensures keep(tail[k]) {
      assert tail[k] == s[k + 1];
    }
    assert Filter(s, keep) == Filter(tail, keep);
  }

  lemma {:induction false} FilterRemovesOneLater<T(!new)>(s: seq<T>, keep: T -> bool, i: int)
    requires 0 < i < |s| && !keep(s[i])
    requires forall k | 0 <= k < |s| && k != i :: keep(s[k])
    ensures Filter(s, keep) == s[..i] + s[i + 1..]
    decreases |s|, 0
  {
    TailStillRejectsOne(s, keep, i);
    FilterRemovesOne(s[1..], keep, i - 1);
    FilterKeepsHead(s, keep);
    RemoveAfterHead(s, i);
  }

  lemma FilterKeepsHead<T(!new)>(s: seq<T>, keep: T -> bool)
    requires 0 < |s| && keep(s[0])
    ensures Filter(s, keep) == [s[0]] + Filter(s[1..], keep)
  {
  }

  /** Removing position `i > 0` commutes with splitting off the head. */
  lemma RemoveAfterHead<T>(s: seq<T>, i: int)
    requires 0 < i < |s|
    ensures [s[0]] + (s[1..][..i - 1] + s[1..][i..]) == s[..i] + s[i + 1..]
  {
    assert s[..i] == [s[0]] + s[1..][..i - 1];
    assert s[i + 1..] == s[1..][i..];
  }

  lemma TailStillRejectsOne<T>(s: seq<T>, keep: T -> bool, i: int)
    requires 0 < i < |s| && !keep(s[i])
    requires forall k | 0 <= k < |s| && k != i :: keep(s[k])
    ensures keep(s[0]) && !keep(s[1..][i - 1])
    ensures forall k | 0 <= k < |s[1..]| && k != i - 1 :: keep(s[1..][k])
  {
    forall k | 0 <= k < |s[1..]| && k != i - 1 ensures keep(s[1..][k]) {
      assert s[1..][k] == s[k + 1];
    }
  }

  /** A filter of a sequence without repeated keys has no repeated keys either. */
  lemma {:induction false} FilterKeepsDistinct<T(!new)>(s: seq<T>, keep: T -> bool, key: T -> int)
    requires DistinctBy(s, key)
    ensures DistinctBy(Filter(s, keep), key)
  {
    if s != [] {
      assert DistinctBy(s[1..], key) by {
        forall i, j | 0 <= i < j < |s[1..]| ensures key(s[1..][i]) != key(s[1..][j]) {
          assert s[1..][i] == s[i + 1] && s[1..][j] == s[j + 1];
        }
      }
      FilterKeepsDistinct(s[1..], keep, key);
      if keep(s[0]) {
        var rest := Filter(s[1..], keep);
        forall j | 0 <= j < |rest| ensures key(s[0]) != key(rest[j]) {
          assert rest[j] in s[1..];
          var k :| 0 <= k < |s[1..]| && s[1..][k] == rest[j];
          assert s[k + 1] == rest[j];
        }
        var r := [s[0]] + rest;
        forall i, j | 0 <= i < j < |r| ensures key(r[i]) != key(r[j]) {
          if i > 0 {
            assert r[i] == rest[i - 1] && r[j] == rest[j - 1];
          } else {
            assert r[j] == rest[j - 1];
          }
        }
      }
    }
  }

  /** The first `n` elements of `s`, or all of them when there are fewer (`s.slice(0, n)`). */
  function Take<T>(s: seq<T>, n: nat): (r: seq<T>)
    ensures |r| == if |s| <= n then |s| else n
    ensures r == s[..|r|]
  {
    if |s| <= n then s else s[..n]
  }

  /** Cutting the tail short before cutting the whole changes nothing. */
  lemma TakeOfTake<T>(a: seq<T>, b: seq<T>, n: nat)
    ensures Take(a + Take(b, n), n) == Take(a + b, n)
  {
    var l, r := Take(a + Take(b, n), n), Take(a + b, n);
    assert |l| == |r|;
    forall i | 0 <= i < |l| ensures l[i] == r[i] {
      if i >= |a| {
        assert (a + Take(b, n))[i] == Take(b, n)[i - |a|] == b[i - |a|];
      }
    }
  }

  /** Cutting after putting `x` in front of `b`, then again after putting `a` in front, is one cut. */
  lemma TakeAfterPrepend<T>(a: seq<T>, x: T, b: seq<T>, n: nat)
    ensures Take(a + Take([x] + b, n), n) == Take(a + [x] + b, n)
  {
    TakeOfTake(a, [x] + b, n);
    assert a + ([x] + b) == a + [x] + b;
  }

  /** A prefix of a sequence without repeated keys has no repeated keys either. */
  lemma TakeKeepsDistinct<T>(s: seq<T>, n: nat, key: T -> int)
    requires DistinctBy(s, key)
    ensures DistinctBy(Take(s, n), key)
  {
    var r := Take(s, n);
    forall i, j | 0 <= i < j < |r| ensures key(r[i]) != key(r[j]) {
      assert r[i] == s[i] && r[j] == s[j];
    }
  }

  /** Keys never increase from left to right. */
  ghost predicate SortedDesc<T>(s: seq<T>, key: T -> int) {
    forall i, j | 0 <= i < j < |s| :: key(s[i]) >= key(s[j])
  }

  /**
   Inserts `x` into a sequence sorted by descending key, in front of the first
   element whose key is not larger; so `x` precedes the elements of equal key,
   which is what makes the sort below stable.
   */
  function InsertDesc<T(!new)>(x: T, s: seq<T>, key: T -> int): (r: seq<T>)
    requires SortedDesc(s, key)
    ensures |r| == |s| + 1
    ensures forall y :: y in r <==> y == x || y in s
    ensures multiset(r) == multiset(s) + multiset{x}
    ensures SortedDesc(r, key)
  {
    if s == [] || key(s[0]) <= key(x) then
      [x] + s
    else
      var rest := InsertDesc(x, s[1..], key);
      var r := [s[0]] + rest;
      assert s == [s[0]] + s[1..];
      assert SortedDesc(r, key) by {
        forall i, j | 0 <= i < j < |r| ensures key(r[i]) >= key(r[j]) {
          assert r[j] == rest[j - 1] && r[j] in rest;
          if i > 0 { assert r[i] == rest[i - 1]; }
        }
      }
      r
  }

  /**
   Stable sort by descending key (insertion sort). A stable sort has exactly one
   possible result, so this is the order `Array.prototype.sort` produces too.
   */
  function SortDesc<T(!new)>(s: seq<T>, key: T -> int): (r: seq<T>)
    ensures |r| == |s|
    ensures forall y :: y in r <==> y in s
    ensures multiset(r) == multiset(s)
    ensures SortedDesc(r, key)
  {
    if s == [] then []
    else
      assert s == [s[0]] + s[1..];
      InsertDesc(s[0], SortDesc(s[1..], key), key)
  }

  lemma {:induction false} InsertKeepsDistinct<T(!new)>(x: T, s: seq<T>, key: T -> int, id: T -> int)
    requires SortedDesc(s, key)
    requires DistinctBy(s, id)
    requires !HasKey(s, id, id(x))
    ensures DistinctBy(InsertDesc(x, s, key), id)
  {
    var r := InsertDesc(x, s, key);
    if s == [] || key(s[0]) <= key(x) {
      forall i, j | 0 <= i < j < |r| ensures id(r[i]) != id(r[j]) {
        assert r[j] == s[j - 1];
        if i > 0 { assert r[i] == s[i - 1]; }
      }
    } else {
      var tail := s[1..];
      assert DistinctBy(tail, id) by {
        forall i, j | 0 <= i < j < |tail| ensures id(tail[i]) != id(tail[j]) {
          assert tail[i] == s[i + 1] && tail[j] == s[j + 1];
        }
      }
      assert !HasKey(tail, id, id(x)) by {
        forall i | 0 <= i < |tail| ensures id(tail[i]) != id(x) { assert tail[i] == s[i + 1]; }
      }
      InsertKeepsDistinct(x, tail, key, id);
      var rest := InsertDesc(x, tail, key);
      assert r == [s[0]] + rest;
      forall j | 0 <= j < |rest| ensures id(s[0]) != id(rest[j]) {
        assert rest[j] in rest;
        if rest[j] != x {
          var k :| 0 <= k < |tail| && tail[k] == rest[j];
          assert s[k + 1] == rest[j];
        } else {
          assert id(s[0]) != id(x);
        }
      }
      forall i, j | 0 <= i < j < |r| ensures id(r[i]) != id(r[j]) {
        assert r[j] == rest[j - 1];
        if i > 0 { assert r[i] == rest[i - 1]; }
      }
    }
  }

  /** Sorting a sequence without repeated ids leaves it without repeated ids. */
  lemma {:induction false} SortKeepsDistinct<T(!new)>(s: seq<T>, key: T -> int, id: T -> int)
    requires DistinctBy(s, id)
    ensures DistinctBy(SortDesc(s, key), id)
  {
    if s != [] {
      var tail := s[1..];
      assert DistinctBy(tail, id) by {
        forall i, j | 0 <= i < j < |tail| ensures id(tail[i]) != id(tail[j]) {
          assert tail[i] == s[i + 1] && tail[j] == s[j + 1];
        }
      }
      SortKeepsDistinct(tail, key, id);
      var sorted := SortDesc(tail, key);
      assert !HasKey(sorted, id, id(s[0])) by {
        forall i | 0 <= i < |sorted| ensures id(sorted[i]) != id(s[0]) {
          assert sorted[i] in tail;
          var k :| 0 <= k < |tail| && tail[k] == sorted[i];
          assert s[k + 1] == sorted[i];
        }
      }
      InsertKeepsDistinct(s[0], sorted, key, id);
    }
  }

  /** Sorting a sequence already sorted by the key changes nothing (stability). */
  lemma {:induction false} SortOfSorted<T(!new)>(s: seq<T>, key: T -> int)
    requires SortedDesc(s, key)
    ensures SortDesc(s, key) == s
  {
    if s != [] {
      assert SortedDesc(s[1..], key);
      SortOfSorted(s[1..], key);
      assert s == [s[0]] + s[1..];
    }
  }
}

=== FILE: storage.dfy ===
/**
 The browser's key-value store (`localStorage`) as a map from key to string, and
 the environment every storage operation runs in.
 */
module Storage {
  import opened Wrappers
  import opened Types
  import opened Json

  type Slots = map<string, string>

  /**
   Whether `setItem(key, value)` succeeds on the given contents; false stands for the
   write throwing (quota exceeded, storage disabled).
   */
  type Accepts = (Slots, string, string) -> bool

  /** Every write succeeds: the store has room and is enabled. */
  ghost predicate Unlimited(accepts: Accepts) {
    forall slots, key, value :: accepts(slots, key, value)
  }

  /** Everything the stores take from the browser. */
  datatype Env = Env(
    clock: Clock,
    accepts: Accepts,
    todoJson: Codec<Todo>,
    trashJson: Codec<DeletedTodo>)

  // Keys of the primary store (the `STORAGE_KEYS` table and the `_backup` suffix).
  const UserNameKey: string := "userName"
  const TodosKey: string := "todos"
  const LastSaveKey: string := "lastSave"
  const BackupKey: string := "todos_backup"

  /** `getItem`: None stands for `null`. */
  function GetItem(slots: Slots, key: string): (r: Option<string>)
    ensures r.Some? <==> key in slots
    ensures r.Some? ==> r.value == slots[key]
  {
    if key in slots then Some(slots[key]) else None
  }

  /** `setItem`: None when the write throws, and then nothing was written. */
  function SetItem(slots: Slots, accepts: Accepts, key: string, value: string): (r: Option<Slots>)
    ensures r.Some? <==> accepts(slots, key, value)
    ensures r.Some? ==> r.value == slots[key := value]
  {
    if accepts(slots, key, value) then Some(slots[key := value]) else None
  }

  /** `removeItem`. */
  function RemoveItem(slots: Slots, key: string): (r: Slots)
    ensures key !in r
    ensures forall k | k != key :: (k in r <==> k in slots) && (k in r ==> r[k] == slots[k])
  {
    slots - {key}
  }

  /** JavaScript truthiness of a `getItem` result: neither `null` nor the empty string. */
  predicate Present(v: Option<string>) {
    v.Some? && v.value != ""
  }
}

=== FILE: text.dfy ===
/**
 The two string operations the core relies on: `String.prototype.trim` and the
 decimal rendering of a non-negative integer (`${n}` in a template literal).
 */
module Text {

  /**
   The characters `trim` removes: the ECMAScript WhiteSpace code points (tab, vertical
   tab, form feed, space, no-break space, byte order mark and every space separator)
   and the LineTerminator code points (line feed, carriage return, U+2028, U+2029).
   */
  predicate IsSpace(c: char) {
    var n := c as int;
    (9 <= n <= 13) || n == 0x20 || n == 0xA0 || n == 0x1680
    || (0x2000 <= n <= 0x200A) || n == 0x2028 || n == 0x2029
    || n == 0x202F || n == 0x205F || n == 0x3000 || n == 0xFEFF
  }

  predicate AllSpace(s: string) {
    forall i | 0 <= i < |s| :: IsSpace(s[i])
  }

  /** Drops the leading space characters. */
  function TrimStart(s: string): (r: string)
    ensures |r| <= |s| && r == s[|s| - |r|..]
    ensures AllSpace(s[..|s| - |r|])
    ensures r == [] || !IsSpace(r[0])
  {
    if s != [] && IsSpace(s[0]) then
      var r := TrimStart(s[1..]);
      assert s[..|s| - |r|] == [s[0]] + s[1..][..|s[1..]| - |r|];
      r
    else s
  }

  /** Drops the trailing space characters. */
  function TrimEnd(s: string): (r: string)
    ensures |r| <= |s| && r == s[..|r|]
    ensures AllSpace(s[|r|..])
    ensures r == [] || !IsSpace(r[|r| - 1])
  {
    if s != [] && IsSpace(s[|s| - 1]) then
      var r := TrimEnd(s[..|s| - 1]);
      assert s[|r|..] == s[..|s| - 1][|r|..] + [s[|s| - 1]];
      r
    else s
  }

  lemma AllSpaceConcat(a: string, b: string, c: string)
    ensures AllSpace(a + b + c) <==> AllSpace(a) && AllSpace(b) && AllSpace(c)
  {
    var s := a + b + c;
    if AllSpace(s) {
      forall i | 0 <= i < |a| ensures IsSpace(a[i]) { assert a[i] == s[i]; }
      forall i | 0 <= i < |b| ensures IsSpace(b[i]) { assert b[i] == s[|a| + i]; }
      forall i | 0 <= i < |c| ensures IsSpace(c[i]) { assert c[i] == s[|a| + |b| + i]; }
    }
  }

  /** `r` is the slice of `s` starting at `lo`, and only spaces lie outside it. */
  ghost predicate IsSpaceBounded(r: string, s: string, lo: int) {
    0 <= lo <= |s| - |r| && r == s[lo..lo + |r|] && AllSpace(s[..lo]) && AllSpace(s[lo + |r|..])
  }

  /**
   `s.trim()`: the slice of `s` left after removing leading and trailing space
   characters; empty exactly when `s` holds nothing but spaces.
   */
  function Trim(s: string): (r: string)
    ensures exists lo :: IsSpaceBounded(r, s, lo)
    ensures r != [] ==> !IsSpace(r[0]) && !IsSpace(r[|r| - 1])
    ensures r == [] <==> AllSpace(s)
  {
    var front := TrimStart(s);
    var r := TrimEnd(front);
    SliceBetweenSpaces(s, front, r);
    r
  }

  /**
   A suffix of `s` after spaces, cut down to a prefix before spaces, is a slice of
   `s` with only spaces around it.
   */
  lemma SliceBetweenSpaces(s: string, front: string, r: string)
    requires |front| <= |s| && front == s[|s| - |front|..] && AllSpace(s[..|s| - |front|])
    requires front == [] || !IsSpace(front[0])
    requires |r| <= |front| && r == front[..|r|] && AllSpace(front[|r|..])
    requires r == [] || !IsSpace(r[|r| - 1])
    ensures IsSpaceBounded(r, s, |s| - |front|) && (AllSpace(s) <==> AllSpace(r))
    ensures r != [] ==> !IsSpace(r[0]) && !IsSpace(r[|r| - 1])
  {
    var lo := |s| - |front|;
    assert r != [] ==> r[0] == front[0];
    assert r == s[lo..lo + |r|];
    assert front[|r|..] == s[lo + |r|..];
    SplitAround(s, lo, r);
  }

  /** A slice of `s` and what lies on either side of it make up `s`. */
  lemma SplitAround(s: string, lo: int, r: string)
    requires 0 <= lo <= |s| - |r| && r == s[lo..lo + |r|]
    ensures AllSpace(s) <==> AllSpace(s[..lo]) && AllSpace(r) && AllSpace(s[lo + |r|..])
  {
    assert s == s[..lo] + r + s[lo + |r|..];
    AllSpaceConcat(s[..lo], r, s[lo + |r|..]);
  }

  /** Trimming twice is trimming once. */
  lemma TrimIdempotent(s: string)
    ensures Trim(Trim(s)) == Trim(s)
  {
    var r := Trim(s);
    if r != [] {
      assert TrimStart(r) == r;
      assert TrimEnd(r) == r;
    }
  }

  /** The character of a decimal digit. */
  function DigitChar(d: nat): (c: char)
    requires d < 10
    ensures '0' <= c <= '9' && (c as int) - ('0' as int) == d
  {
    (('0' as int) + d) as char
  }

  predicate IsDigits(s: string) {
    forall i | 0 <= i < |s| :: '0' <= s[i] <= '9'
  }

  /** The number a string of decimal digits denotes, most significant digit first. */
  function DigitsValue(s: string): nat
    requires IsDigits(s)
  {
    if s == [] then 0
    else DigitsValue(s[..|s| - 1]) * 10 + ((s[|s| - 1] as int) - ('0' as int))
  }

  /** `${n}` for a non-negative integer: its shortest decimal digit string. */
  function Decimal(n: nat): (r: string)
    ensures r != [] && IsDigits(r)
    ensures |r| > 1 ==> r[0] != '0'
    ensures DigitsValue(r) == n
  {
    if n < 10 then [DigitChar(n)]
    else
      var front := Decimal(n / 10);
      var r := front + [DigitChar(n % 10)];
      assert r[..|r| - 1] == front;
      r
  }
}

=== FILE: todo_laws.dfy ===
/**
 Properties of the primary store across calls: what a successful save writes, the
 save/load round trip, the legacy bare-array format, when the backup is consulted,
 total loss ending in an empty list, the user-name round trip and what a full reset
 removes. All round trips assume `JSON.parse` gives back what `JSON.stringify` wrote.
 */
module TodoLaws {
  import opened Wrappers
  import opened Seqs
  import opened Types
  import opened Json
  import opened Storage
  import opened TodoStore
  import TrashStore

  /** A faithfully stringified record decodes to its todos. */
  lemma RecordDecodes(todos: seq<Todo>, stamp: string, codec: Codec<Todo>)
    requires Faithful(codec)
    ensures DecodeSlot(Some(codec.stringify(SavedRecord(todos, stamp))), codec) == Found(todos)
  {
    var text := codec.stringify(SavedRecord(todos, stamp));
    assert text != "" && codec.parse(text) == Some(SavedRecord(todos, stamp));
  }

  /**
   After a successful save, the primary and backup slots hold the same text, the
   record it encodes carries the list, the version "1.0" and a stamp equal to the
   last-saved slot.
   */
  lemma SaveWritesRecordTwice(todos: seq<Todo>, slots: Slots, env: Env)
    requires Faithful(env.todoJson)
    requires SaveTodos(todos, slots, env).ok
    ensures var after := SaveTodos(todos, slots, env).slots;
      TodosKey in after && BackupKey in after && LastSaveKey in after
      && after[TodosKey] == after[BackupKey]
      && env.todoJson.parse(after[TodosKey])
         == Some(Object(Some(Array(todos)), Some(after[LastSaveKey]), Some("1.0")))
  {
    var stamp := env.clock.iso(env.clock.now);
    var text := env.todoJson.stringify(SavedRecord(todos, stamp));
    assert env.todoJson.parse(text) == Some(SavedRecord(todos, stamp));
  }

  /** Loading right after a successful save returns the saved list, in the code as written too. */
  lemma SaveThenLoad(todos: seq<Todo>, slots: Slots, env: Env)
    requires Faithful(env.todoJson)
    requires SaveTodos(todos, slots, env).ok
    ensures LoadTodos(SaveTodos(todos, slots, env).slots, env.todoJson) == todos
    ensures LoadTodosAsWritten(SaveTodos(todos, slots, env).slots, env.todoJson) == Array(todos)
  {
    var stamp := env.clock.iso(env.clock.now);
    RecordDecodes(todos, stamp, env.todoJson);
    assert GetItem(SaveTodos(todos, slots, env).slots, TodosKey)
      == Some(env.todoJson.stringify(SavedRecord(todos, stamp)));
  }

  /** If the primary slot is lost after a successful save, the backup alone gives the list back. */
  lemma BackupRescuesLostPrimary(todos: seq<Todo>, slots: Slots, env: Env)
    requires Faithful(env.todoJson)
    requires SaveTodos(todos, slots, env).ok
    ensures LoadTodos(RemoveItem(SaveTodos(todos, slots, env).slots, TodosKey), env.todoJson) == todos
    ensures LoadTodosAsWritten(RemoveItem(SaveTodos(todos, slots, env).slots, TodosKey), env.todoJson) == Array(todos)
  {
    var stamp := env.clock.iso(env.clock.now);
    RecordDecodes(todos, stamp, env.todoJson);
    var lost := RemoveItem(SaveTodos(todos, slots, env).slots, TodosKey);
    assert GetItem(lost, TodosKey) == None;
    assert GetItem(lost, BackupKey) == Some(env.todoJson.stringify(SavedRecord(todos, stamp)));
  }

  /** A primary slot holding a bare array (the legacy format) is returned unchanged. */
  lemma LegacyArrayIsReturned(slots: Slots, codec: Codec<Todo>, todos: seq<Todo>)
    requires Present(GetItem(slots, TodosKey))
    requires codec.parse(slots[TodosKey]) == Some(Array(todos))
    ensures LoadTodos(slots, codec) == todos
    ensures LoadTodosAsWritten(slots, codec) == Array(todos)
  {
  }

  /**
   The backup is consulted only when the primary slot is absent or holds neither shape:
   otherwise any change to the backup slot leaves the result as it was.
   */
  lemma BackupIgnoredWhenPrimaryDecides(slots: Slots, codec: Codec<Todo>, backup: Option<string>)
    requires !DecodeSlot(GetItem(slots, TodosKey), codec).NotFound?
    ensures var other := if backup.Some? then slots[BackupKey := backup.value] else RemoveItem(slots, BackupKey);
      LoadTodos(other, codec) == LoadTodos(slots, codec)
      && LoadTodosAsWritten(other, codec) == LoadTodosAsWritten(slots, codec)
  {
    var other := if backup.Some? then slots[BackupKey := backup.value] else RemoveItem(slots, BackupKey);
    assert GetItem(other, TodosKey) == GetItem(slots, TodosKey);
  }

  /** A primary slot that fails to parse gives the empty list, whatever the backup holds. */
  lemma CorruptPrimaryGivesEmpty(slots: Slots, codec: Codec<Todo>)
    requires Present(GetItem(slots, TodosKey))
    requires codec.parse(slots[TodosKey]).None?
    ensures LoadTodos(slots, codec) == []
    ensures LoadTodosAsWritten(slots, codec) == Array([])
  {
  }

  /** With both slots absent, load returns the empty list. */
  lemma NothingStoredGivesEmpty(slots: Slots, codec: Codec<Todo>)
    requires TodosKey !in slots && BackupKey !in slots
    ensures LoadTodos(slots, codec) == []
    ensures LoadTodosAsWritten(slots, codec) == Array([])
  {
  }

  /**
   The backup is read by the same rule as the primary slot: with the primary absent
   or shapeless, loading gives what a store holding the backup text as its primary
   would give.
   */
  lemma BackupReadLikePrimary(slots: Slots, codec: Codec<Todo>)
    requires DecodeSlot(GetItem(slots, TodosKey), codec).NotFound?
    requires BackupKey in slots
    ensures LoadTodos(slots, codec) == LoadTodos(map[TodosKey := slots[BackupKey]], codec)
  {
    var moved := map[TodosKey := slots[BackupKey]];
    assert GetItem(moved, TodosKey) == GetItem(slots, BackupKey);
    assert GetItem(moved, BackupKey) == None;
  }

  /** Wherever the code as written returns an array, the corrected loader returns the same list. */
  lemma LoadAgreesWithAsWritten(slots: Slots, codec: Codec<Todo>)
    ensures LoadTodosAsWritten(slots, codec).Array? ==>
      LoadTodosAsWritten(slots, codec) == Array(LoadTodos(slots, codec))
  {
  }

  /**
   A backup record whose `todos` field is the number 1 (so `{"todos":1}`) with no
   primary slot: the code as written returns that number as the todo list, while
   the same text in the primary slot would give the empty list.
   */
  lemma BackupTodosNotCheckedAsWritten()
    ensures var text := "{\"todos\":1}";
      var codec := Codec(
        (s: string) => if s == text then Some(Object(Some(Scalar(true)), None, None)) else None,
        (j: Json<Todo>) => text);
      var slots := map[BackupKey := text];
      !LoadTodosAsWritten(slots, codec).Array?
      && LoadTodosAsWritten(map[TodosKey := text], codec) == Array([])
      && LoadTodos(slots, codec) == []
  {
    var text := "{\"todos\":1}";
    var codec := Codec(
      (s: string) => if s == text then Some(Object(Some(Scalar(true)), None, None)) else None,
      (j: Json<Todo>) => text);
    var slots := map[BackupKey := text];
    assert GetItem(slots, TodosKey) == None;
    assert GetItem(slots, BackupKey) == Some(text);
    assert codec.parse(text) == Some(Object(Some(Scalar(true)), None, None));
    assert DecodeBackupAsWritten(Some(text), codec) == Found(Scalar(true));
    assert GetItem(map[TodosKey := text], TodosKey) == Some(text);
  }

  /** Saving a name and loading it gives the name back. */
  lemma UserNameRoundTrip(name: string, slots: Slots, env: Env)
    requires SaveUserName(name, slots, env).ok
    ensures LoadUserName(SaveUserName(name, slots, env).slots) == Some(name)
  {
  }

  /**
   After `clearAllData` there is no user, no todo and no last-saved stamp, while the
   trash log keeps its stored text.
   */
  lemma ClearAllDataResets(slots: Slots, env: Env)
    ensures LoadUserName(ClearAllData(slots)) == None
    ensures LoadTodos(ClearAllData(slots), env.todoJson) == []
    ensures GetStorageStats(ClearAllData(slots), env.todoJson) == Some(Stats(false, None, 0, 0, None))
    ensures GetItem(ClearAllData(slots), TrashStore.TrashKey) == GetItem(slots, TrashStore.TrashKey)
  {
    assert TrashStore.TrashKey !in AppKeys;
  }
}

=== FILE: todo_list.dfy ===
/**
 The list logic of the todo screen: add, toggle, edit, delete, restore, clear
 completed, the three filter tabs and the completed count, each a transformation
 of the in-memory list that the screen then saves. Deleting and clearing also hand
 the removed todos to the trash store.
 */
module TodoList {
  import opened Wrappers
  import opened Seqs
  import opened Types
  import opened Text
  import opened Storage
  import TrashStore

  /** `addTodo`: blank input changes nothing; otherwise one new incomplete todo goes last. */
  function AddTodo(todos: seq<Todo>, input: string, clock: Clock): (r: seq<Todo>)
    ensures AllSpace(input) ==> r == todos
    ensures !AllSpace(input) ==>
      |r| == |todos| + 1 && r[..|todos|] == todos
      && r[|todos|] == Todo(clock.now, Trim(input), false, clock.iso(clock.now), None)
  {
    var text := Trim(input);
    if text == [] then todos
    else todos + [Todo(clock.now, text, false, clock.iso(clock.now), None)]
  }

  /** The toggled todo: `completed` flipped, the completion stamp set or cleared to match. */
  function Flip(t: Todo, clock: Clock): (r: Todo)
    ensures r.completed == !t.completed
    ensures r.completedAt.Some? <==> r.completed
    ensures r.id == t.id && r.text == t.text && r.createdAt == t.createdAt
  {
    t.(completed := !t.completed,
       completedAt := if !t.completed then Some(clock.iso(clock.now)) else None)
  }

  /** `toggleTodo`: flips every todo with the id and leaves the others as they were. */
  function ToggleTodo(todos: seq<Todo>, id: int, clock: Clock): (r: seq<Todo>)
    ensures |r| == |todos|
    ensures forall i | 0 <= i < |todos| ::
      r[i] == if todos[i].id == id then Flip(todos[i], clock) else todos[i]
  {
    if todos == [] then []
    else [if todos[0].id == id then Flip(todos[0], clock) else todos[0]]
         + ToggleTodo(todos[1..], id, clock)
  }

  /** `saveEdit`: blank text cancels; otherwise the edited todo's text becomes the trimmed text. */
  function SaveEdit(todos: seq<Todo>, editingId: Option<int>, editText: string): (r: seq<Todo>)
    ensures AllSpace(editText) ==> r == todos
    ensures |r| == |todos|
    ensures !AllSpace(editText) ==> forall i | 0 <= i < |todos| ::
      r[i] == if editingId == Some(todos[i].id) then todos[i].(text := Trim(editText)) else todos[i]
  {
    var text := Trim(editText);
    if text == [] then todos else Rename(todos, editingId, text)
  }

  function Rename(todos: seq<Todo>, editingId: Option<int>, text: string): (r: seq<Todo>)
    ensures |r| == |todos|
    ensures forall i | 0 <= i < |todos| ::
      r[i] == if editingId == Some(todos[i].id) then todos[i].(text := text) else todos[i]
  {
    if todos == [] then []
    else [if editingId == Some(todos[0].id) then todos[0].(text := text) else todos[0]]
         + Rename(todos[1..], editingId, text)
  }

  /** `deleteTodo`'s list update: every todo with the id goes, the rest keep their order. */
  function DeleteTodo(todos: seq<Todo>, id: int): (r: seq<Todo>)
    ensures !HasKey(r, TodoId, id)
    ensures forall t :: t in r <==> t in todos && t.id != id
    ensures IsSubsequence(r, todos)
    ensures forall t :: multiset(r)[t] == if t.id != id then multiset(todos)[t] else 0
  {
    var keep := (t: Todo) => t.id != id;
    FilterCounts(todos, keep);
    var r := Filter(todos, keep);
    assert forall i | 0 <= i < |r| :: r[i] in r;
    r
  }

  /** The first todo with the id (`todos.find`). */
  function FindTodo(todos: seq<Todo>, id: int): (r: Option<Todo>)
    ensures r.Some? <==> HasKey(todos, TodoId, id)
    ensures r.Some? ==> r.value in todos && r.value.id == id
    ensures r.Some? ==> exists i | 0 <= i < |todos| ::
      todos[i] == r.value && forall j | 0 <= j < i :: todos[j].id != id
  {
    if todos == [] then None
    else if todos[0].id == id then Some(todos[0])
    else
      var r := FindTodo(todos[1..], id);
      if r.Some? then FirstMatchPastHead(todos, id, r.value); r else r
  }

  /** A first match in the tail is a first match in the list when the head does not match. */
  lemma FirstMatchPastHead(todos: seq<Todo>, id: int, v: Todo)
    requires todos != [] && todos[0].id != id
    requires exists i | 0 <= i < |todos[1..]| ::
      todos[1..][i] == v && forall j | 0 <= j < i :: todos[1..][j].id != id
    ensures exists i | 0 <= i < |todos| :: todos[i] == v && forall j | 0 <= j < i :: todos[j].id != id
  {
    var i :| 0 <= i < |todos[1..]| && todos[1..][i] == v && forall j | 0 <= j < i :: todos[1..][j].id != id;
    forall j | 0 <= j < i + 1 ensures todos[j].id != id {
      if j > 0 { assert todos[j] == todos[1..][j - 1]; }
    }
    assert todos[i + 1] == v;
  }

  /**
   `deleteTodo` in full: the todo found by id is handed to the trash store (its
   failure is ignored), then the list loses every todo with that id.
   */
  function DeleteToTrash(todos: seq<Todo>, id: int, slots: Slots, env: Env): (r: (seq<Todo>, Slots))
    ensures r.0 == DeleteTodo(todos, id)
    ensures !HasKey(todos, TodoId, id) ==> r.1 == slots
    ensures HasKey(todos, TodoId, id) ==> r.1 == TrashStore.AddDeleted(FindTodo(todos, id).value, slots, env).slots
  {
    match FindTodo(todos, id)
    case None => (DeleteTodo(todos, id), slots)
    case Some(t) => (DeleteTodo(todos, id), TrashStore.AddDeleted(t, slots, env).slots)
  }

  /** `restoreTodo`: appends the todo unless its id is already in the list. */
  function RestoreTodo(todos: seq<Todo>, todo: Todo): (r: seq<Todo>)
    ensures HasKey(todos, TodoId, todo.id) ==> r == todos
    ensures !HasKey(todos, TodoId, todo.id) ==> r == todos + [todo]
    ensures HasKey(r, TodoId, todo.id)
  {
    if HasKey(todos, TodoId, todo.id) then todos
    else
      assert (todos + [todo])[|todos|] == todo;
      todos + [todo]
  }

  predicate IsActive(t: Todo) { !t.completed }

  /** `clearCompleted`'s list update: exactly the incomplete todos, in order. */
  function ClearCompleted(todos: seq<Todo>): (r: seq<Todo>)
    ensures forall t :: t in r <==> t in todos && !t.completed
    ensures IsSubsequence(r, todos)
  {
    Filter(todos, IsActive)
  }

  /** `clearCompleted`'s hand-off: each completed todo, in list order, to the trash store. */
  function TrashEach(completed: seq<Todo>, slots: Slots, env: Env): (r: Slots)
    ensures completed == [] ==> r == slots
    ensures r - {TrashStore.TrashKey} == slots - {TrashStore.TrashKey}
    decreases |completed|
  {
    if completed == [] then slots
    else TrashEach(completed[1..], TrashStore.AddDeleted(completed[0], slots, env).slots, env)
  }

  /**
   `clearCompleted` in full: the completed todos go to the trash store one after the
   other, whatever each hand-off returns, and the list keeps the rest.
   */
  function ClearCompletedToTrash(todos: seq<Todo>, slots: Slots, env: Env): (r: (seq<Todo>, Slots))
    ensures r.0 == ClearCompleted(todos)
    ensures r.1 == TrashEach(CompletedTodos(todos), slots, env)
    ensures (forall t | t in todos :: !t.completed) ==> r == (todos, slots)
  {
    (ClearCompleted(todos), TrashEach(CompletedTodos(todos), slots, env))
  }

  /** The filter tabs. */
  datatype Tab = ShowAll | ShowActive | ShowCompleted

  /** `filteredTodos`. */
  function Visible(todos: seq<Todo>, tab: Tab): (r: seq<Todo>)
    ensures tab == ShowAll ==> r == todos
    ensures tab == ShowActive ==> forall t :: t in r <==> t in todos && !t.completed
    ensures tab == ShowCompleted ==> forall t :: t in r <==> t in todos && t.completed
    ensures IsSubsequence(r, todos)
  {
    match tab
    case ShowAll =>
      assert IsSubsequence(Filter(todos, _ => true), todos);
      assert Filter(todos, _ => true) == todos;
      todos
    case ShowActive => Filter(todos, IsActive)
    case ShowCompleted => CompletedTodos(todos)
  }

  /** `completedCount`: the number of completed todos. */
  function CompletedCount(todos: seq<Todo>): (n: nat)
    ensures n == |Visible(todos, ShowCompleted)|
    ensures n + |Visible(todos, ShowActive)| == |todos|
    ensures n + |ClearCompleted(todos)| == |todos|
  {
    FilterPartition(todos, IsCompleted, IsActive);
    |CompletedTodos(todos)|
  }
}

=== FILE: todo_list_laws.dfy ===
/**
 Properties of the list operations: the invariant every list the screen builds keeps
 (distinct ids, and a completion stamp exactly on completed todos), what toggling
 twice gives back, delete followed by restore, the completed/active partition, and
 what deleting or clearing leaves in the trash store.
 */
module TodoListLaws {
  import opened Wrappers
  import opened Seqs
  import opened Types
  import opened Text
  import opened Storage
  import opened Json
  import TrashStore
  import TrashLaws
  import opened TodoList

  /** A completion stamp is present exactly on completed todos. */
  predicate StampMatches(t: Todo) {
    t.completedAt.Some? <==> t.completed
  }

  /** The invariant of the in-memory list. */
  ghost predicate Coherent(todos: seq<Todo>) {
    UniqueIds(todos) && forall t | t in todos :: StampMatches(t)
  }

  /** Adding keeps the invariant as long as the clock has not handed out that id already. */
  lemma AddKeepsCoherent(todos: seq<Todo>, input: string, clock: Clock)
    requires Coherent(todos)
    requires !HasKey(todos, TodoId, clock.now)
    ensures Coherent(AddTodo(todos, input, clock))
  {
    var r := AddTodo(todos, input, clock);
    if !AllSpace(input) {
      forall i, j | 0 <= i < j < |r| ensures TodoId(r[i]) != TodoId(r[j]) {
        if j == |todos| {
          assert r[i] == todos[i];
        } else {
          assert r[i] == todos[i] && r[j] == todos[j];
        }
      }
      forall t | t in r ensures StampMatches(t) {
        var k :| 0 <= k < |r| && r[k] == t;
        if k < |todos| {
          assert r[k] == todos[k];
        }
      }
    }
  }

  /** The added todo carries non-blank text that trimming leaves as it is. */
  lemma AddedTextIsTrimmed(todos: seq<Todo>, input: string, clock: Clock)
    requires !AllSpace(input)
    ensures var t := AddTodo(todos, input, clock)[|todos|];
      t.text != [] && Trim(t.text) == t.text && !t.completed
  {
    TrimIdempotent(input);
  }

  /** Toggling keeps every id in place and so keeps the invariant. */
  lemma ToggleKeepsCoherent(todos: seq<Todo>, id: int, clock: Clock)
    requires Coherent(todos)
    ensures Coherent(ToggleTodo(todos, id, clock))
  {
    var r := ToggleTodo(todos, id, clock);
    forall i, j | 0 <= i < j < |r| ensures TodoId(r[i]) != TodoId(r[j]) {
      assert TodoId(todos[i]) != TodoId(todos[j]);
    }
    forall t | t in r ensures StampMatches(t) {
      var k :| 0 <= k < |r| && r[k] == t;
      assert todos[k] in todos;
    }
  }

  /**
   Toggling the same id twice gives every todo back its completion state; a todo that
   was open comes back exactly as it was, while a completed one gets a fresh stamp.
   */
  lemma ToggleTwice(todos: seq<Todo>, id: int, first: Clock, second: Clock)
    requires forall t | t in todos :: StampMatches(t)
    ensures var r := ToggleTodo(ToggleTodo(todos, id, first), id, second);
      |r| == |todos|
      && (forall i | 0 <= i < |todos| :: r[i].completed == todos[i].completed)
      && (forall i | 0 <= i < |todos| :: !todos[i].completed ==> r[i] == todos[i])
      && (forall i | 0 <= i < |todos| && todos[i].id == id && todos[i].completed ::
            r[i].completedAt == Some(second.iso(second.now)))
  {
    var once := ToggleTodo(todos, id, first);
    var r := ToggleTodo(once, id, second);
    forall i | 0 <= i < |todos| && !todos[i].completed ensures r[i] == todos[i] {
      assert todos[i] in todos;
    }
  }

  /** Editing changes text only, so it keeps the invariant. */
  lemma SaveEditKeepsCoherent(todos: seq<Todo>, editingId: Option<int>, editText: string)
    requires Coherent(todos)
    ensures Coherent(SaveEdit(todos, editingId, editText))
  {
    var r := SaveEdit(todos, editingId, editText);
    forall i, j | 0 <= i < j < |r| ensures TodoId(r[i]) != TodoId(r[j]) {
      assert TodoId(todos[i]) != TodoId(todos[j]);
    }
    forall t | t in r ensures StampMatches(t) {
      var k :| 0 <= k < |r| && r[k] == t;
      assert todos[k] in todos;
    }
  }

  /** Deleting keeps the invariant. */
  lemma DeleteKeepsCoherent(todos: seq<Todo>, id: int)
    requires Coherent(todos)
    ensures Coherent(DeleteTodo(todos, id))
  {
    FilterKeepsDistinct(todos, (t: Todo) => t.id != id, TodoId);
  }

  /** Clearing completed todos keeps the invariant, and leaves nothing to clear. */
  lemma ClearKeepsCoherent(todos: seq<Todo>)
    requires Coherent(todos)
    ensures Coherent(ClearCompleted(todos))
    ensures ClearCompleted(ClearCompleted(todos)) == ClearCompleted(todos)
    ensures CompletedCount(ClearCompleted(todos)) == 0
  {
    FilterKeepsDistinct(todos, IsActive, TodoId);
    var r := ClearCompleted(todos);
    assert forall i | 0 <= i < |r| :: r[i] in r;
  }

  /** Restoring never duplicates an id, and keeps the invariant for a well-stamped todo. */
  lemma RestoreKeepsCoherent(todos: seq<Todo>, todo: Todo)
    requires Coherent(todos)
    requires StampMatches(todo)
    ensures Coherent(RestoreTodo(todos, todo))
  {
    var r := RestoreTodo(todos, todo);
    if !HasKey(todos, TodoId, todo.id) {
      forall i, j | 0 <= i < j < |r| ensures TodoId(r[i]) != TodoId(r[j]) {
        assert r[i] == todos[i];
        if j < |todos| {
          assert r[j] == todos[j];
        }
      }
    }
  }

  /** With distinct ids, deleting the todo at `i` removes exactly that position. */
  lemma DeleteRemovesOne(todos: seq<Todo>, i: int)
    requires UniqueIds(todos)
    requires 0 <= i < |todos|
    ensures DeleteTodo(todos, todos[i].id) == todos[..i] + todos[i + 1..]
  {
    var id := todos[i].id;
    var keep := (t: Todo) => t.id != id;
    assert DeleteTodo(todos, id) == Filter(todos, keep);
    forall k | 0 <= k < |todos| && k != i ensures keep(todos[k]) {
      if k < i {
        assert TodoId(todos[k]) != TodoId(todos[i]);
      } else {
        assert TodoId(todos[i]) != TodoId(todos[k]);
      }
    }
    FilterRemovesOne(todos, keep, i);
  }

  /**
   Deleting a todo and restoring it gives back the same todos, the restored one now
   last in the list.
   */
  lemma DeleteThenRestore(todos: seq<Todo>, i: int)
    requires UniqueIds(todos)
    requires 0 <= i < |todos|
    ensures RestoreTodo(DeleteTodo(todos, todos[i].id), todos[i]) == todos[..i] + todos[i + 1..] + [todos[i]]
    ensures multiset(RestoreTodo(DeleteTodo(todos, todos[i].id), todos[i])) == multiset(todos)
  {
    DeleteRemovesOne(todos, i);
    RestoreAfterRemoval(todos, i, DeleteTodo(todos, todos[i].id));
  }

  /** Restoring the todo removed from position `i` puts it last, with nothing lost. */
  lemma RestoreAfterRemoval(todos: seq<Todo>, i: int, rest: seq<Todo>)
    requires 0 <= i < |todos|
    requires rest == todos[..i] + todos[i + 1..]
    requires !HasKey(rest, TodoId, todos[i].id)
    ensures RestoreTodo(rest, todos[i]) == rest + [todos[i]]
    ensures multiset(rest + [todos[i]]) == multiset(todos)
  {
    assert todos == todos[..i] + [todos[i]] + todos[i + 1..];
  }

  /** Deleting a listed todo drops exactly one entry when ids are distinct. */
  lemma DeleteShrinksByOne(todos: seq<Todo>, id: int)
    requires UniqueIds(todos)
    requires HasKey(todos, TodoId, id)
    ensures |DeleteTodo(todos, id)| == |todos| - 1
  {
    var i :| 0 <= i < |todos| && TodoId(todos[i]) == id;
    DeleteRemovesOne(todos, i);
  }

  /**
   Deleting a listed todo, with storage that accepts every write, takes it off the
   list, and the next read of the trash, at any time in the following seven days,
   lists it.
   */
  lemma DeletedTodoIsRecoverable(todos: seq<Todo>, id: int, slots: Slots, env: Env, later: int)
    requires Faithful(env.trashJson)
    requires Unlimited(env.accepts)
    requires StampsParse(env.clock, env.clock.now)
    requires HasKey(todos, TodoId, id)
    requires !HasKey(TrashStore.ReadTrash(slots, env).entries, DeletedId, id)
    requires env.clock.now <= later < env.clock.now + TrashStore.ExpiryMs
    ensures var r := DeleteToTrash(todos, id, slots, env);
      var env' := env.(clock := env.clock.(now := later));
      !HasKey(r.0, TodoId, id)
      && WithDeletedAt(FindTodo(todos, id).value, env.clock.iso(env.clock.now))
           in TrashStore.ReadTrash(r.1, env').entries
  {
    TrashLaws.AddedTodoIsRecoverable(FindTodo(todos, id).value, slots, env, later);
  }

  /** Handing any number of todos to the trash keeps its log well formed. */
  lemma {:induction false} TrashEachKeepsLogWellFormed(completed: seq<Todo>, slots: Slots, env: Env)
    requires Faithful(env.trashJson)
    requires TrashStore.WellFormedLog(slots, env)
    ensures TrashStore.WellFormedLog(TrashEach(completed, slots, env), env)
    decreases |completed|
  {
    if completed != [] {
      TrashLaws.AddKeepsLogWellFormed(completed[0], slots, env);
      TrashEachKeepsLogWellFormed(completed[1..], TrashStore.AddDeleted(completed[0], slots, env).slots, env);
    }
  }

  /** Clearing completed todos keeps the trash log well formed and the list coherent. */
  lemma ClearToTrashKeepsInvariants(todos: seq<Todo>, slots: Slots, env: Env)
    requires Faithful(env.trashJson)
    requires Coherent(todos)
    requires TrashStore.WellFormedLog(slots, env)
    ensures var r := ClearCompletedToTrash(todos, slots, env);
      Coherent(r.0) && TrashStore.WellFormedLog(r.1, env)
  {
    ClearKeepsCoherent(todos);
    TrashEachKeepsLogWellFormed(CompletedTodos(todos), slots, env);
  }

  /** The entries `TrashEach` adds, stamped `stamp`, the last todo handed over first. */
  function StampedNewestFirst(ts: seq<Todo>, stamp: string): (r: seq<DeletedTodo>)
    ensures |r| == |ts|
    ensures forall i | 0 <= i < |ts| :: r[|ts| - 1 - i] == WithDeletedAt(ts[i], stamp)
  {
    if ts == [] then [] else StampedNewestFirst(ts[1..], stamp) + [WithDeletedAt(ts[0], stamp)]
  }

  /**
   Handing over the first todo puts it in front of the log, and the premises of
   `TrashEachListsNewestFirst` hold again: the remaining ids are still new to the log
   and no entry is stamped later than now.
   */
  lemma TrashEachStepPremises(ts: seq<Todo>, slots: Slots, env: Env)
    requires Faithful(env.trashJson)
    requires Unlimited(env.accepts)
    requires StampsParse(env.clock, env.clock.now)
    requires ts != [] && DistinctBy(ts, TodoId)
    requires forall t | t in ts :: !HasKey(TrashStore.ReadTrash(slots, env).entries, DeletedId, t.id)
    requires forall d | d in TrashStore.ReadTrash(slots, env).entries :: TrashStore.SortKey(d, env.clock) <= env.clock.now
    ensures var after := TrashStore.ReadTrash(TrashStore.AddDeleted(ts[0], slots, env).slots, env).entries;
      && after == TrashStore.Prepend(WithDeletedAt(ts[0], env.clock.iso(env.clock.now)), TrashStore.ReadTrash(slots, env).entries)
      && DistinctBy(ts[1..], TodoId)
      && (forall t | t in ts[1..] :: !HasKey(after, DeletedId, t.id))
      && forall d | d in after :: TrashStore.SortKey(d, env.clock) <= env.clock.now
  {
    var before := TrashStore.ReadTrash(slots, env).entries;
    var entry := WithDeletedAt(ts[0], env.clock.iso(env.clock.now));
    assert ts[0] in ts;
    TrashLaws.AddNewGoesFirst(ts[0], slots, env);
    TrashLaws.PrependMembers(entry, before);
    assert TrashStore.SortKey(entry, env.clock) == env.clock.now;
    forall t | t in ts[1..] ensures t in ts && t.id != ts[0].id {
      var j :| 0 <= j < |ts[1..]| && ts[1..][j] == t;
      assert ts[j + 1] == t;
    }
  }

  /**
   With storage that accepts every write and ids new to the trash log, handing a
   list of todos to the trash one after the other lists them, newest first, in front
   of the entries read before, at most fifty entries in all.
   */
  lemma {:induction false} TrashEachListsNewestFirst(ts: seq<Todo>, slots: Slots, env: Env)
    requires Faithful(env.trashJson)
    requires Unlimited(env.accepts)
    requires StampsParse(env.clock, env.clock.now)
    requires DistinctBy(ts, TodoId)
    requires forall t | t in ts :: !HasKey(TrashStore.ReadTrash(slots, env).entries, DeletedId, t.id)
    requires forall d | d in TrashStore.ReadTrash(slots, env).entries :: TrashStore.SortKey(d, env.clock) <= env.clock.now
    ensures var before := TrashStore.ReadTrash(slots, env).entries;
      TrashStore.ReadTrash(TrashEach(ts, slots, env), env).entries
        == if ts == [] then before
           else Take(StampedNewestFirst(ts, env.clock.iso(env.clock.now)) + before, TrashStore.MaxDeleted)
    decreases |ts|
  {
    if ts != [] {
      var stamp := env.clock.iso(env.clock.now);
      var before := TrashStore.ReadTrash(slots, env).entries;
      var next := TrashStore.AddDeleted(ts[0], slots, env).slots;
      var after := TrashStore.ReadTrash(next, env).entries;
      TrashEachStepPremises(ts, slots, env);
      TrashEachListsNewestFirst(ts[1..], next, env);
      StampedAfterPrepend(ts, stamp, before);
      calc {
        TrashStore.ReadTrash(TrashEach(ts, slots, env), env).entries;
        TrashStore.ReadTrash(TrashEach(ts[1..], next, env), env).entries;
        if ts[1..] == [] then after else Take(StampedNewestFirst(ts[1..], stamp) + after, TrashStore.MaxDeleted);
        Take(StampedNewestFirst(ts, stamp) + before, TrashStore.MaxDeleted);
      }
    }
  }

  /** The fifty-entry cut of each hand-over composes into one cut of the whole. */
  lemma StampedAfterPrepend(ts: seq<Todo>, stamp: string, before: seq<DeletedTodo>)
    requires ts != []
    ensures var entry := WithDeletedAt(ts[0], stamp);
      var after := TrashStore.Prepend(entry, before);
      (if ts[1..] == [] then after else Take(StampedNewestFirst(ts[1..], stamp) + after, TrashStore.MaxDeleted))
        == Take(StampedNewestFirst(ts, stamp) + before, TrashStore.MaxDeleted)
  {
    var entry := WithDeletedAt(ts[0], stamp);
    var rest := StampedNewestFirst(ts[1..], stamp);
    var whole := StampedNewestFirst(ts, stamp);
    assert whole == rest + [entry];
    assert TrashStore.Prepend(entry, before) == Take([entry] + before, TrashStore.MaxDeleted);
    TakeAfterPrepend(rest, entry, before, TrashStore.MaxDeleted);
  }

  /**
   With storage that accepts every write and completed ids new to the trash log,
   after `clearCompleted` the next read lists every cleared todo among the last fifty
   cleared, stamped with the clearing time.
   */
  lemma ClearedTodosAreRecoverable(todos: seq<Todo>, slots: Slots, env: Env)
    requires Faithful(env.trashJson)
    requires Unlimited(env.accepts)
    requires StampsParse(env.clock, env.clock.now)
    requires UniqueIds(todos)
    requires forall t | t in todos && t.completed :: !HasKey(TrashStore.ReadTrash(slots, env).entries, DeletedId, t.id)
    requires forall d | d in TrashStore.ReadTrash(slots, env).entries :: TrashStore.SortKey(d, env.clock) <= env.clock.now
    ensures var done := CompletedTodos(todos);
      var listed := TrashStore.ReadTrash(ClearCompletedToTrash(todos, slots, env).1, env).entries;
      forall i | 0 <= i < |done| && |done| - i <= TrashStore.MaxDeleted ::
        WithDeletedAt(done[i], env.clock.iso(env.clock.now)) in listed
  {
    var done := CompletedTodos(todos);
    var stamp := env.clock.iso(env.clock.now);
    var before := TrashStore.ReadTrash(slots, env).entries;
    FilterKeepsDistinct(todos, IsCompleted, TodoId);
    assert forall t | t in done :: !HasKey(before, DeletedId, t.id);
    TrashEachListsNewestFirst(done, slots, env);
    forall i | 0 <= i < |done| && |done| - i <= TrashStore.MaxDeleted
      ensures WithDeletedAt(done[i], stamp) in Take(StampedNewestFirst(done, stamp) + before, TrashStore.MaxDeleted)
    {
      StampedIsListed(done, stamp, before, i);
    }
  }

  /** Each of the last fifty todos handed over is among the first fifty entries. */
  lemma StampedIsListed(ts: seq<Todo>, stamp: string, before: seq<DeletedTodo>, i: int)
    requires 0 <= i < |ts| && |ts| - i <= TrashStore.MaxDeleted
    ensures WithDeletedAt(ts[i], stamp) in Take(StampedNewestFirst(ts, stamp) + before, TrashStore.MaxDeleted)
  {
    var all := StampedNewestFirst(ts, stamp) + before;
    assert all[|ts| - 1 - i] == WithDeletedAt(ts[i], stamp);
    assert Take(all, TrashStore.MaxDeleted)[|ts| - 1 - i] == all[|ts| - 1 - i];
  }
}

=== FILE: todo_store.dfy ===
/**
 The primary store: the todo list saved as a `{todos, lastSaved, version}` record
 under a primary key and a backup key, a last-saved stamp, and the user's name.
 Loading accepts the record or a bare legacy array, and tries the backup only when
 the primary slot is absent or holds neither shape; a primary slot that fails to
 parse ends the load with an empty list.
 */
module TodoStore {
  import opened Wrappers
  import opened Seqs
  import opened Types
  import opened Json
  import opened Storage

  const Version: string := "1.0"

  /** The record `saveTodos` writes. */
  function SavedRecord(todos: seq<Todo>, lastSaved: string): Json<Todo> {
    Object(Some(Array(todos)), Some(lastSaved), Some(Version))
  }

  datatype Outcome = Outcome(ok: bool, slots: Slots)

  /**
   `saveTodos`: writes the record to the primary slot, its stamp to the last-saved
   slot, and the same record to the backup slot, in that order. A write that throws
   ends the save with false, and the writes made before it stay.
   */
  function SaveTodos(todos: seq<Todo>, slots: Slots, env: Env): (r: Outcome)
    ensures var stamp := env.clock.iso(env.clock.now);
      var text := env.todoJson.stringify(SavedRecord(todos, stamp));
      r.ok ==> r.slots == slots[TodosKey := text][LastSaveKey := stamp][BackupKey := text]
    ensures var stamp := env.clock.iso(env.clock.now);
      var text := env.todoJson.stringify(SavedRecord(todos, stamp));
      !r.ok ==>
        r.slots == slots
        || r.slots == slots[TodosKey := text]
        || r.slots == slots[TodosKey := text][LastSaveKey := stamp]
    ensures var stamp := env.clock.iso(env.clock.now);
      var text := env.todoJson.stringify(SavedRecord(todos, stamp));
      var s1 := slots[TodosKey := text];
      var s2 := s1[LastSaveKey := stamp];
      (r.ok <==> env.accepts(slots, TodosKey, text) && env.accepts(s1, LastSaveKey, stamp)
                 && env.accepts(s2, BackupKey, text))
      && (!env.accepts(slots, TodosKey, text) ==> r.slots == slots)
      && (env.accepts(slots, TodosKey, text) && !env.accepts(s1, LastSaveKey, stamp) ==> r.slots == s1)
      && ((env.accepts(slots, TodosKey, text) && env.accepts(s1, LastSaveKey, stamp)
           && !env.accepts(s2, BackupKey, text)) ==> r.slots == s2)
    ensures Unlimited(env.accepts) ==> r.ok
  {
    var stamp := env.clock.iso(env.clock.now);
    var text := env.todoJson.stringify(SavedRecord(todos, stamp));
    match SetItem(slots, env.accepts, TodosKey, text)
    case None => Outcome(false, slots)
    case Some(s1) =>
      match SetItem(s1, env.accepts, LastSaveKey, stamp)
      case None => Outcome(false, s1)
      case Some(s2) =>
        match SetItem(s2, env.accepts, BackupKey, text)
        case None => Outcome(false, s2)
        case Some(s3) => Outcome(true, s3)
  }

  /** What reading one slot yields: a value to return, a thrown exception, or nothing usable. */
  datatype Attempt<T> = Found(value: T) | Thrown | NotFound

  /**
   The primary slot's decoding: a bare array, or an object whose `todos` field is an
   array. `JSON.parse` throwing, and a stored `null` (whose `.todos` access throws),
   both end in the catch block.
   */
  function DecodeSlot(raw: Option<string>, codec: Codec<Todo>): (r: Attempt<seq<Todo>>)
    ensures !Present(raw) ==> r == NotFound
    ensures Present(raw) && codec.parse(raw.value).None? ==> r == Thrown
    ensures Present(raw) && codec.parse(raw.value) == Some(Null) ==> r == Thrown
    ensures r.Found? ==>
      Present(raw) && codec.parse(raw.value).Some? &&
      var doc := codec.parse(raw.value).value;
      doc == Array(r.value) || (doc.Object? && doc.todos == Some(Array(r.value)))
    ensures Present(raw) && codec.parse(raw.value).Some? ==>
      var doc := codec.parse(raw.value).value;
      (doc.Array? ==> r == Found(doc.items))
      && (doc.Object? && doc.todos.Some? && doc.todos.value.Array? ==> r == Found(doc.todos.value.items))
      && (doc != Null && !doc.Array? && !(doc.Object? && doc.todos.Some? && doc.todos.value.Array?)
          ==> r == NotFound)
  {
    if !Present(raw) then NotFound
    else match codec.parse(raw.value)
      case None => Thrown
      case Some(Null) => Thrown
      case Some(Array(items)) => Found(items)
      case Some(Object(Some(Array(items)), _, _)) => Found(items)
      case Some(_) => NotFound
  }

  /**
   The backup slot's decoding as the program writes it: an array, or any truthy
   `todos` field, which is returned whether or not it is an array.
   */
  function DecodeBackupAsWritten(raw: Option<string>, codec: Codec<Todo>): (r: Attempt<Json<Todo>>)
    ensures !Present(raw) ==> r == NotFound
    ensures Present(raw) && (codec.parse(raw.value).None? || codec.parse(raw.value) == Some(Null)) ==> r == Thrown
    ensures r.Found? ==> Truthy(r.value)
    ensures Present(raw) && codec.parse(raw.value).Some? ==>
      var doc := codec.parse(raw.value).value;
      (doc.Array? ==> r == Found(doc))
      && (doc.Object? && doc.todos.Some? && Truthy(doc.todos.value) ==> r == Found(doc.todos.value))
      && (doc != Null && !doc.Array? && !(doc.Object? && doc.todos.Some? && Truthy(doc.todos.value))
          ==> r == NotFound)
  {
    if !Present(raw) then NotFound
    else match codec.parse(raw.value)
      case None => Thrown
      case Some(Null) => Thrown
      case Some(Array(items)) => Found(Array(items))
      case Some(Object(Some(v), _, _)) => if Truthy(v) then Found(v) else NotFound
      case Some(_) => NotFound
  }

  /**
   `loadTodos` as written: the value it returns, which is a non-array when the backup
   record's `todos` field is a truthy non-array.
   */
  function LoadTodosAsWritten(slots: Slots, codec: Codec<Todo>): (r: Json<Todo>)
    ensures DecodeSlot(GetItem(slots, TodosKey), codec).Found? ==>
      r == Array(DecodeSlot(GetItem(slots, TodosKey), codec).value)
    ensures DecodeSlot(GetItem(slots, TodosKey), codec).Thrown? ==> r == Array([])
    ensures DecodeSlot(GetItem(slots, TodosKey), codec).NotFound? ==>
      var backup := DecodeBackupAsWritten(GetItem(slots, BackupKey), codec);
      (backup.Found? ==> r == backup.value) && (!backup.Found? ==> r == Array([]))
  {
    match DecodeSlot(GetItem(slots, TodosKey), codec)
    case Found(todos) => Array(todos)
    case Thrown => Array([])
    case NotFound =>
      match DecodeBackupAsWritten(GetItem(slots, BackupKey), codec)
      case Found(v) => v
      case _ => Array([])
  }

  /**
   `loadTodos` with the backup decoded by the same two-shape rule as the primary
   slot. Never fails: every unusable case ends in the empty list.
   */
  function LoadTodos(slots: Slots, codec: Codec<Todo>): (r: seq<Todo>)
    ensures DecodeSlot(GetItem(slots, TodosKey), codec).Found? ==>
      r == DecodeSlot(GetItem(slots, TodosKey), codec).value
    ensures r != [] ==>
      DecodeSlot(GetItem(slots, TodosKey), codec) == Found(r)
      || (DecodeSlot(GetItem(slots, TodosKey), codec).NotFound?
          && DecodeSlot(GetItem(slots, BackupKey), codec) == Found(r))
  {
    match DecodeSlot(GetItem(slots, TodosKey), codec)
    case Found(todos) => todos
    case Thrown => []
    case NotFound =>
      match DecodeSlot(GetItem(slots, BackupKey), codec)
      case Found(todos) => todos
      case _ => []
  }

  /** `saveUserName`. */
  function SaveUserName(name: string, slots: Slots, env: Env): (r: Outcome)
    ensures r.ok <==> env.accepts(slots, UserNameKey, name)
    ensures r.slots == if r.ok then slots[UserNameKey := name] else slots
  {
    match SetItem(slots, env.accepts, UserNameKey, name)
    case None => Outcome(false, slots)
    case Some(written) => Outcome(true, written)
  }

  /** `loadUserName`: the stored name, possibly empty, or None. */
  function LoadUserName(slots: Slots): (r: Option<string>)
    ensures r.Some? <==> UserNameKey in slots
    ensures r.Some? ==> r.value == slots[UserNameKey]
  {
    GetItem(slots, UserNameKey)
  }

  /** The keys `clearAllData` removes. */
  const AppKeys: set<string> := {UserNameKey, TodosKey, LastSaveKey, BackupKey}

  /** `clearAllData`: removes the four primary-store keys and nothing else. */
  function ClearAllData(slots: Slots): (r: Slots)
    ensures forall k | k in AppKeys :: k !in r
    ensures forall k | k !in AppKeys :: (k in r <==> k in slots) && (k in r ==> r[k] == slots[k])
  {
    slots - AppKeys
  }

  /**
   The snapshot `getStorageStats` returns. `lastSave` is the stored stamp text, which
   the program wraps in a `Date`.
   */
  datatype Stats = Stats(
    hasUser: bool,
    userName: Option<string>,
    todosCount: nat,
    completedCount: nat,
    lastSave: Option<string>)

  /**
   `getStorageStats`: None stands for the `null` its catch block returns. That happens
   exactly when `loadTodos` as written returns a value that is not an array, whose
   missing `filter` method throws.
   */
  function GetStorageStats(slots: Slots, codec: Codec<Todo>): (r: Option<Stats>)
    ensures r.None? <==> !LoadTodosAsWritten(slots, codec).Array?
    ensures r.Some? ==>
      var todos := LoadTodos(slots, codec);
      r.value.todosCount == |todos|
      && r.value.completedCount == |CompletedTodos(todos)|
      && r.value.completedCount <= r.value.todosCount
    ensures r.Some? ==>
      r.value.userName == LoadUserName(slots)
      && (r.value.hasUser <==> Present(r.value.userName))
      && (r.value.lastSave.Some? <==> Present(GetItem(slots, LastSaveKey)))
      && (r.value.lastSave.Some? ==> r.value.lastSave == GetItem(slots, LastSaveKey))
  {
    match LoadTodosAsWritten(slots, codec)
    case Array(todos) =>
      var name := LoadUserName(slots);
      var lastSave := GetItem(slots, LastSaveKey);
      assert todos == LoadTodos(slots, codec);
      Some(Stats(
        Present(name),
        name,
        |todos|,
        |CompletedTodos(todos)|,
        if Present(lastSave) then lastSave else None))
    case _ => None
  }
}

=== FILE: trash_laws.dfy ===
/**
 Properties of the trash store across calls: the read path is idempotent and leaves
 no expired entry behind, every operation keeps the stored log free of repeated ids
 and within fifty entries, adding is idempotent, an added todo is listed by the
 next read at any time in the following seven days, and restore and permanent delete take the id out of the log.
 All of them assume `JSON.parse` gives back what `JSON.stringify` wrote.
 */
module TrashLaws {
  import opened Wrappers
  import opened Seqs
  import opened Types
  import opened Json
  import opened Storage
  import opened TrashStore

  /** After a faithful write of `items`, the read path finds exactly those entries. */
  lemma WrittenLogReadsBack(slots: Slots, env: Env, items: seq<DeletedTodo>)
    requires Faithful(env.trashJson)
    ensures Classify(slots[TrashKey := env.trashJson.stringify(Array(items))], env) == Entries(items)
  {
    var text := env.trashJson.stringify(Array(items));
    assert text != "" && env.trashJson.parse(text) == Some(Array(items));
    assert GetItem(slots[TrashKey := text], TrashKey) == Some(text);
  }

  /** A stored log whose entries are all recent is read without a write, in newest-first order. */
  lemma ReadOfRecentLog(slots: Slots, env: Env, items: seq<DeletedTodo>)
    requires Classify(slots, env) == Entries(items)
    requires forall d | d in items :: IsRecent(d, env.clock)
    ensures ReadTrash(slots, env) == Read(NewestFirst(items, env.clock), slots)
  {
    var kept := FilterRecent(Array(items), env.clock);
    assert forall i | 0 <= i < |items| :: IsRecent(items[i], env.clock) by {
      assert forall i | 0 <= i < |items| :: items[i] in items;
    }
    assert kept == items;
  }

  /** Reading twice is reading once: the second read neither writes nor returns anything new. */
  lemma ReadIsIdempotent(slots: Slots, env: Env)
    requires Faithful(env.trashJson)
    ensures ReadTrash(ReadTrash(slots, env).slots, env) == ReadTrash(slots, env)
  {
    var r := ReadTrash(slots, env);
    match Classify(slots, env)
    case Missing =>
    case NotAList =>
    case Malformed =>
      assert Classify(r.slots, env) == Missing;
    case Entries(items) =>
      var kept := FilterRecent(Array(items), env.clock);
      if |kept| != |items| {
        var text := env.trashJson.stringify(Array(kept));
        if env.accepts(slots, TrashKey, text) {
          WrittenLogReadsBack(slots, env, kept);
          ReadOfRecentLog(r.slots, env, kept);
        } else {
          assert Classify(r.slots, env) == Missing;
        }
      }
  }

  /** After a read, the stored log holds no entry seven days old or older, or no log at all. */
  lemma ReadLeavesNoExpired(slots: Slots, env: Env)
    requires Faithful(env.trashJson)
    ensures var after := Classify(ReadTrash(slots, env).slots, env);
      after.Entries? ==> forall d | d in after.items :: IsRecent(d, env.clock)
  {
    var r := ReadTrash(slots, env);
    match Classify(slots, env)
    case Missing =>
    case NotAList =>
    case Malformed =>
      assert Classify(r.slots, env) == Missing;
    case Entries(items) =>
      var kept := FilterRecent(Array(items), env.clock);
      if |kept| == |items| {
        assert kept == items;
      } else if env.accepts(slots, TrashKey, env.trashJson.stringify(Array(kept))) {
        WrittenLogReadsBack(slots, env, kept);
      } else {
        assert Classify(r.slots, env) == Missing;
      }
  }

  /** Reading a well-formed log returns distinct ids, at most fifty, and leaves it well-formed. */
  lemma ReadOfWellFormedLog(slots: Slots, env: Env)
    requires Faithful(env.trashJson)
    requires WellFormedLog(slots, env)
    ensures WellFormedLog(ReadTrash(slots, env).slots, env)
    ensures DistinctBy(ReadTrash(slots, env).entries, DeletedId)
    ensures |ReadTrash(slots, env).entries| <= MaxDeleted
  {
    var r := ReadTrash(slots, env);
    match Classify(slots, env)
    case Missing =>
    case NotAList =>
    case Malformed =>
      assert Classify(r.slots, env) == Missing;
    case Entries(items) =>
      var kept := FilterRecent(Array(items), env.clock);
      if |kept| != |items| {
        if env.accepts(slots, TrashKey, env.trashJson.stringify(Array(kept))) {
          WrittenLogReadsBack(slots, env, kept);
        } else {
          assert Classify(r.slots, env) == Missing;
        }
      }
  }

  /** Putting a new id in front of a log without repeated ids keeps it without repeated ids. */
  lemma PrependKeepsDistinct(entry: DeletedTodo, entries: seq<DeletedTodo>)
    requires DistinctBy(entries, DeletedId)
    requires !HasKey(entries, DeletedId, entry.id)
    ensures DistinctBy(Prepend(entry, entries), DeletedId)
  {
    var all := [entry] + entries;
    forall i, j | 0 <= i < j < |all| ensures DeletedId(all[i]) != DeletedId(all[j]) {
      assert all[j] == entries[j - 1];
      if i > 0 { assert all[i] == entries[i - 1]; }
    }
    TakeKeepsDistinct(all, MaxDeleted, DeletedId);
  }

  /** Adding keeps the stored log without repeated ids and within fifty entries. */
  lemma AddKeepsLogWellFormed(todo: Todo, slots: Slots, env: Env)
    requires Faithful(env.trashJson)
    requires WellFormedLog(slots, env)
    ensures WellFormedLog(AddDeleted(todo, slots, env).slots, env)
  {
    ReadOfWellFormedLog(slots, env);
    var read := ReadTrash(slots, env);
    if !HasKey(read.entries, DeletedId, todo.id) {
      var entry := WithDeletedAt(todo, env.clock.iso(env.clock.now));
      PrependKeepsDistinct(entry, read.entries);
      WrittenLogReadsBack(read.slots, env, Prepend(entry, read.entries));
    }
  }

  /** Restoring keeps the stored log without repeated ids and within fifty entries. */
  lemma RestoreKeepsLogWellFormed(entry: DeletedTodo, slots: Slots, env: Env)
    requires Faithful(env.trashJson)
    requires WellFormedLog(slots, env)
    ensures WellFormedLog(RestoreDeleted(entry, slots, env).slots, env)
  {
    ReadOfWellFormedLog(slots, env);
    var read := ReadTrash(slots, env);
    WrittenLogReadsBack(read.slots, env, WithoutId(read.entries, entry.id));
  }

  /** Permanent delete keeps the stored log without repeated ids and within fifty entries. */
  lemma PurgeKeepsLogWellFormed(id: int, slots: Slots, env: Env)
    requires Faithful(env.trashJson)
    requires WellFormedLog(slots, env)
    ensures WellFormedLog(PermanentlyDelete(id, slots, env).slots, env)
  {
    ReadOfWellFormedLog(slots, env);
    var read := ReadTrash(slots, env);
    WrittenLogReadsBack(read.slots, env, WithoutId(read.entries, id));
  }

  /** A todo stamped with a parseable `now` is recent at `now`. */
  lemma FreshEntryIsRecent(todo: Todo, clock: Clock)
    requires StampsParse(clock, clock.now)
    ensures IsRecent(WithDeletedAt(todo, clock.iso(clock.now)), clock)
  {
  }

  /** Entries of the read path are members of what the read path returns. */
  lemma MemberHasKey(entries: seq<DeletedTodo>, d: DeletedTodo)
    requires d in entries
    ensures HasKey(entries, DeletedId, d.id)
  {
    var i :| 0 <= i < |entries| && entries[i] == d;
    assert DeletedId(entries[i]) == d.id;
  }

  /**
   Adding the same todo a second time, at the same instant, changes nothing and
   reports success: the log keeps exactly one entry for the id.
   */
  lemma AddIsIdempotent(todo: Todo, slots: Slots, env: Env)
    requires Faithful(env.trashJson)
    requires StampsParse(env.clock, env.clock.now)
    requires AddDeleted(todo, slots, env).ok
    ensures var first := AddDeleted(todo, slots, env);
      AddDeleted(todo, first.slots, env) == Outcome(true, first.slots)
  {
    var read := ReadTrash(slots, env);
    if HasKey(read.entries, DeletedId, todo.id) {
      ReadIsIdempotent(slots, env);
    } else {
      AddNewIsIdempotent(todo, read, env);
    }
  }

  lemma AddNewIsIdempotent(todo: Todo, read: Read, env: Env)
    requires Faithful(env.trashJson)
    requires StampsParse(env.clock, env.clock.now)
    requires forall d | d in read.entries :: IsRecent(d, env.clock)
    ensures var p := Prepend(WithDeletedAt(todo, env.clock.iso(env.clock.now)), read.entries);
      var written := read.slots[TrashKey := env.trashJson.stringify(Array(p))];
      AddDeleted(todo, written, env) == Outcome(true, written)
  {
    var entry := WithDeletedAt(todo, env.clock.iso(env.clock.now));
    var p := Prepend(entry, read.entries);
    var written := read.slots[TrashKey := env.trashJson.stringify(Array(p))];
    WrittenLogReadsBack(read.slots, env, p);
    FreshEntryIsRecent(todo, env.clock);
    forall d | d in p ensures IsRecent(d, env.clock) {
      if d != entry {
        var k :| 0 <= k < |p| && p[k] == d;
        assert d == read.entries[k - 1];
      }
    }
    ReadOfRecentLog(written, env, p);
    assert entry in NewestFirst(p, env.clock);
    MemberHasKey(NewestFirst(p, env.clock), entry);
  }

  /** A log already in newest-first order is left as it is by the read path's sort. */
  lemma NewestFirstOfSorted(entries: seq<DeletedTodo>, clock: Clock)
    requires forall i, j | 0 <= i < j < |entries| :: SortKey(entries[i], clock) >= SortKey(entries[j], clock)
    ensures NewestFirst(entries, clock) == entries
  {
    SortOfSorted(entries, d => SortKey(d, clock));
  }

  /**
   With storage that accepts every write and no entry stamped later than now, a todo
   new to the log comes first in the next read, followed by the entries read before,
   at most fifty in all.
   */
  lemma AddNewGoesFirst(todo: Todo, slots: Slots, env: Env)
    requires Faithful(env.trashJson)
    requires Unlimited(env.accepts)
    requires StampsParse(env.clock, env.clock.now)
    requires !HasKey(ReadTrash(slots, env).entries, DeletedId, todo.id)
    requires forall d | d in ReadTrash(slots, env).entries :: SortKey(d, env.clock) <= env.clock.now
    ensures var before := ReadTrash(slots, env).entries;
      ReadTrash(AddDeleted(todo, slots, env).slots, env).entries
        == Prepend(WithDeletedAt(todo, env.clock.iso(env.clock.now)), before)
  {
    var read := ReadTrash(slots, env);
    var entry := WithDeletedAt(todo, env.clock.iso(env.clock.now));
    var p := Prepend(entry, read.entries);
    var written := read.slots[TrashKey := env.trashJson.stringify(Array(p))];
    assert AddDeleted(todo, slots, env).slots == written;
    FreshEntryIsRecent(todo, env.clock);
    assert SortKey(entry, env.clock) == env.clock.now;
    PrependNewest(entry, read.entries, env.clock);
    ReadOfWrittenNewestLog(read.slots, env, p);
  }

  /** A recent log written newest first is read back exactly as written. */
  lemma ReadOfWrittenNewestLog(slots: Slots, env: Env, items: seq<DeletedTodo>)
    requires Faithful(env.trashJson)
    requires forall d | d in items :: IsRecent(d, env.clock)
    requires forall i, j | 0 <= i < j < |items| :: SortKey(items[i], env.clock) >= SortKey(items[j], env.clock)
    ensures ReadTrash(slots[TrashKey := env.trashJson.stringify(Array(items))], env).entries == items
  {
    var written := slots[TrashKey := env.trashJson.stringify(Array(items))];
    WrittenLogReadsBack(slots, env, items);
    ReadOfRecentLog(written, env, items);
    NewestFirstOfSorted(items, env.clock);
  }

  /** Every entry of a prepended log is the new one or was in the log before. */
  lemma PrependMembers(entry: DeletedTodo, entries: seq<DeletedTodo>)
    ensures forall d | d in Prepend(entry, entries) :: d == entry || d in entries
    ensures forall k | HasKey(Prepend(entry, entries), DeletedId, k) :: k == entry.id || HasKey(entries, DeletedId, k)
  {
    var p := Prepend(entry, entries);
    forall i | 0 < i < |p| ensures p[i] == entries[i - 1] {
      assert p[1..][i - 1] == entries[i - 1];
    }
  }

  /**
   Putting a recent entry no older than any other in front of a recent log in
   newest-first order keeps it recent and in newest-first order.
   */
  lemma PrependNewest(entry: DeletedTodo, entries: seq<DeletedTodo>, clock: Clock)
    requires IsRecent(entry, clock)
    requires forall d | d in entries :: IsRecent(d, clock) && SortKey(d, clock) <= SortKey(entry, clock)
    requires forall i, j | 0 <= i < j < |entries| :: SortKey(entries[i], clock) >= SortKey(entries[j], clock)
    ensures var p := Prepend(entry, entries);
      (forall d | d in p :: IsRecent(d, clock))
      && forall i, j | 0 <= i < j < |p| :: SortKey(p[i], clock) >= SortKey(p[j], clock)
  {
    var p := Prepend(entry, entries);
    forall i | 0 < i < |p| ensures p[i] == entries[i - 1] && p[i] in entries {
      assert p[1..][i - 1] == entries[i - 1];
    }
  }

  /**
   A todo that was not yet in the log and was added successfully is returned by the
   next read, made at any time in the following seven days, stamped with the time it
   was added, as long as the store accepts writes. Later additions in between can
   still push it out through the fifty-entry cap.
   */
  lemma AddedTodoIsRecoverable(todo: Todo, slots: Slots, env: Env, later: int)
    requires Faithful(env.trashJson)
    requires Unlimited(env.accepts)
    requires StampsParse(env.clock, env.clock.now)
    requires !HasKey(ReadTrash(slots, env).entries, DeletedId, todo.id)
    requires env.clock.now <= later < env.clock.now + ExpiryMs
    ensures var env' := env.(clock := env.clock.(now := later));
      WithDeletedAt(todo, env.clock.iso(env.clock.now))
        in ReadTrash(AddDeleted(todo, slots, env).slots, env').entries
  {
    var env' := env.(clock := env.clock.(now := later));
    var read := ReadTrash(slots, env);
    var entry := WithDeletedAt(todo, env.clock.iso(env.clock.now));
    var p := Prepend(entry, read.entries);
    assert AddDeleted(todo, slots, env).slots == read.slots[TrashKey := env.trashJson.stringify(Array(p))];
    assert IsRecent(entry, env'.clock) by {
      assert DeletedTime(entry, env'.clock) == Some(env.clock.now);
    }
    assert p[0] in p;
    RecentEntryIsRead(read.slots, env', p, entry);
  }

  /** A recent entry of a freshly written log is among what the next read returns. */
  lemma RecentEntryIsRead(slots: Slots, env: Env, items: seq<DeletedTodo>, d: DeletedTodo)
    requires Faithful(env.trashJson)
    requires Unlimited(env.accepts)
    requires d in items && IsRecent(d, env.clock)
    ensures d in ReadTrash(slots[TrashKey := env.trashJson.stringify(Array(items))], env).entries
  {
    var written := slots[TrashKey := env.trashJson.stringify(Array(items))];
    WrittenLogReadsBack(slots, env, items);
    var kept := FilterRecent(Array(items), env.clock);
    assert d in kept;
    var r := ReadTrash(written, env);
    assert d in multiset(kept);
    assert multiset(r.entries) == multiset(kept) || multiset(r.entries) == multiset(items);
    assert d in multiset(r.entries);
  }

  /** After a successful restore, the read path no longer finds the restored id. */
  lemma RestoredIdLeavesLog(entry: DeletedTodo, slots: Slots, env: Env)
    requires Faithful(env.trashJson)
    requires RestoreDeleted(entry, slots, env).success
    ensures !HasKey(ReadTrash(RestoreDeleted(entry, slots, env).slots, env).entries, DeletedId, entry.id)
  {
    RemovedIdLeavesLog(entry.id, ReadTrash(slots, env), env);
  }

  /** After a successful permanent delete, the read path no longer finds the id. */
  lemma PurgedIdLeavesLog(id: int, slots: Slots, env: Env)
    requires Faithful(env.trashJson)
    requires PermanentlyDelete(id, slots, env).ok
    ensures !HasKey(ReadTrash(PermanentlyDelete(id, slots, env).slots, env).entries, DeletedId, id)
  {
    RemovedIdLeavesLog(id, ReadTrash(slots, env), env);
  }

  /** Writing back the entries of a read without one id leaves a log the next read finds without it. */
  lemma RemovedIdLeavesLog(id: int, read: Read, env: Env)
    requires Faithful(env.trashJson)
    requires forall d | d in read.entries :: IsRecent(d, env.clock)
    ensures var rest := WithoutId(read.entries, id);
      var written := read.slots[TrashKey := env.trashJson.stringify(Array(rest))];
      !HasKey(ReadTrash(written, env).entries, DeletedId, id)
  {
    var rest := WithoutId(read.entries, id);
    var written := read.slots[TrashKey := env.trashJson.stringify(Array(rest))];
    WrittenLogReadsBack(read.slots, env, rest);
    ReadOfRecentLog(written, env, rest);
    HasKeyOfSameElements(NewestFirst(rest, env.clock), rest, DeletedId, id);
  }

  /** When the store accepts writes, cleanup reports exactly the number of expired entries. */
  lemma CleanupCountsExpired(slots: Slots, env: Env)
    requires Unlimited(env.accepts)
    requires Classify(slots, env).Entries?
    ensures CleanupExpired(slots, env).count == ExpiredCount(Classify(slots, env).items, env.clock)
  {
    ReadKeepsRecent(slots, env);
  }

  /**
   With storage that accepts every write, the read path returns as many entries as
   the stored log has recent ones.
   */
  lemma ReadKeepsRecent(slots: Slots, env: Env)
    requires Unlimited(env.accepts)
    requires Classify(slots, env).Entries?
    ensures var items := Classify(slots, env).items;
      |ReadTrash(slots, env).entries| == |FilterRecent(Array(items), env.clock)|
      == |items| - ExpiredCount(items, env.clock)
  {
    var items := Classify(slots, env).items;
    var kept := FilterRecent(Array(items), env.clock);
    var r := ReadTrash(slots, env);
    if |kept| == |items| {
      assert |multiset(r.entries)| == |multiset(items)|;
    } else {
      assert |multiset(r.entries)| == |multiset(kept)|;
    }
  }

  /**
   With storage that accepts every write, the count is the number of stored entries
   that are not yet seven days old.
   */
  lemma CountIsRecentStored(slots: Slots, env: Env)
    requires Unlimited(env.accepts)
    requires Classify(slots, env).Entries?
    ensures var items := Classify(slots, env).items;
      CountDeleted(slots, env).count == |items| - ExpiredCount(items, env.clock)
  {
    ReadKeepsRecent(slots, env);
  }

  /** After clearing, the count is zero. */
  lemma ClearEmptiesLog(slots: Slots, env: Env)
    ensures CountDeleted(ClearDeleted(slots).slots, env).count == 0
  {
    assert Classify(ClearDeleted(slots).slots, env) == Missing;
  }
}

=== FILE: trash_panel.dfy ===
/**
 The trash panel in the navigation bar: the "deleted … ago" and "expires in …"
 arithmetic over millisecond timestamps, the count badge, and Restore All, which
 walks a copy of the listed entries, restores each through the trash store and
 hands every restored todo to the list screen.
 */
module TrashPanel {
  import opened Wrappers
  import opened Seqs
  import opened Types
  import opened Text
  import opened Storage
  import opened TrashStore
  import TodoList

  const MinuteMs: int := 60 * 1000
  const HourMs: int := 60 * MinuteMs
  const DayMs: int := 24 * HourMs

  /** The units of `formatDeletionTime`. */
  datatype Unit = Minute | Hour | Day

  /**
   How long ago an entry was deleted, as `formatDeletionTime` classifies it: under a
   minute, a whole number of the largest unit that is at least one, or a NaN day count.
   */
  datatype Ago = JustNow | Since(n: nat, unit: Unit) | NaNDaysAgo

  /**
   The classification of `formatDeletionTime`. An unreadable stamp makes every
   comparison with NaN false, so it lands in the day branch with a NaN count. A
   stamp in the future gives a negative minute count and so "Just now".
   */
  function Elapsed(d: DeletedTodo, clock: Clock): (r: Ago)
    ensures DeletedTime(d, clock).None? <==> r == NaNDaysAgo
    ensures DeletedTime(d, clock).Some? ==>
      var diff := clock.now - DeletedTime(d, clock).value;
      (r == JustNow <==> diff < MinuteMs)
      && (r.Since? && r.unit == Minute <==> MinuteMs <= diff < HourMs)
      && (r.Since? && r.unit == Hour <==> HourMs <= diff < DayMs)
      && (r.Since? && r.unit == Day <==> DayMs <= diff)
      && (r.Since? && r.unit == Minute ==> r.n * MinuteMs <= diff < (r.n + 1) * MinuteMs)
      && (r.Since? && r.unit == Hour ==> r.n * HourMs <= diff < (r.n + 1) * HourMs)
      && (r.Since? && r.unit == Day ==> r.n * DayMs <= diff < (r.n + 1) * DayMs)
  {
    match DeletedTime(d, clock)
    case None => NaNDaysAgo
    case Some(t) =>
      var diff := clock.now - t;
      if diff < HourMs then
        var minutes := diff / MinuteMs;
        if minutes <= 0 then JustNow else Since(minutes, Minute)
      else if diff < DayMs then Since(diff / HourMs, Hour)
      else Since(diff / DayMs, Day)
  }

  /** The plural suffix of a unit: none exactly for one. */
  function Plural(n: nat): (r: string)
    ensures r == [] <==> n == 1
  {
    if n == 1 then "" else "s"
  }

  /** The longest prefix of decimal digits. */
  function DigitPrefix(s: string): (r: string)
    ensures IsDigits(r) && r <= s
    ensures r == s || !('0' <= s[|r|] <= '9')
  {
    if s == [] || !('0' <= s[0] <= '9') then []
    else [s[0]] + DigitPrefix(s[1..])
  }

  /** The text `formatDeletionTime` shows for a classification. */
  function AgoText(a: Ago): (r: string)
    ensures a.Since? ==> ShowsCount(r, a.n, a.unit)
    ensures a.Since? ==> DigitPrefix(r) == Decimal(a.n) && PluralFor(r, a.n)
    ensures !a.Since? ==> DigitPrefix(r) == []
    ensures a != JustNow ==> EndsWithAgo(r)
  {
    match a
    case JustNow => JustNowText()
    case Since(n, u) => Counted(n, u)
    case NaNDaysAgo => NaNDaysText()
  }

  /** The text ends in " ago". */
  predicate EndsWithAgo(r: string) {
    |r| >= 4 && r[|r| - 4..] == " ago"
  }

  /** The unit before " ago" is in the plural exactly when the count is not one. */
  predicate PluralFor(r: string, n: nat) {
    |r| >= 5 && (r[|r| - 5] == 's' <==> n != 1)
  }

  /** The text for under a minute, which shows no number. */
  function JustNowText(): (r: string)
    ensures DigitPrefix(r) == [] && r != []
  {
    var r := "Just now";
    assert r[0] == 'J';
    r
  }

  /** The text for an unreadable stamp: the NaN count in the day branch. */
  function NaNDaysText(): (r: string)
    ensures DigitPrefix(r) == [] && EndsWithAgo(r)
  {
    var r := "NaN days ago";
    assert r[0] == 'N';
    assert r[|r| - 4..] == " ago";
    r
  }

  /** A unit's singular word; no word ends in the plural's "s" on its own. */
  function Word(u: Unit): (w: string)
    ensures w != [] && w[|w| - 1] != 's'
    ensures w[0] == if u == Minute then 'm' else if u == Hour then 'h' else 'd'
  {
    match u
    case Minute => var w := "minute"; assert w[5] == 'e'; w
    case Hour => var w := "hour"; assert w[3] == 'r'; w
    case Day => var w := "day"; assert w[2] == 'y'; w
  }

  /** `${n} unit${n === 1 ? '' : 's'} ago`. */
  function Counted(n: nat, u: Unit): (r: string)
    ensures DigitPrefix(r) == Decimal(n) && DigitsValue(DigitPrefix(r)) == n
    ensures |r| > |Decimal(n)| + 1 && r[|Decimal(n)|..] == Tail(n, u)
    ensures EndsWithAgo(r) && PluralFor(r, n)
  {
    var t := Tail(n, u);
    DigitPrefixStopsAtSpace(Decimal(n), t);
    var r := Decimal(n) + t;
    assert r[|r| - 5] == t[|t| - 5];
    assert r[|r| - 4..] == t[|t| - 4..];
    r
  }

  /** The part of a counted text after the number. */
  function Tail(n: nat, u: Unit): (t: string)
    ensures |t| == |Word(u)| + |Plural(n)| + 5
    ensures t[0] == ' ' && t[1] == Word(u)[0]
    ensures t[|t| - 4..] == " ago"
    ensures t[|t| - 5] == 's' <==> n != 1
  {
    var unit := Word(u);
    var ago := " ago";
    var t := [' '] + unit + Plural(n) + ago;
    assert t[1] == unit[0];
    assert t[|t| - 4..] == ago;
    assert t[|t| - 5] == if n == 1 then unit[|unit| - 1] else 's';
    t
  }

  /** A digit string followed by a space is exactly the digit prefix. */
  lemma {:induction false} DigitPrefixStopsAtSpace(digits: string, rest: string)
    requires IsDigits(digits)
    requires rest != [] && rest[0] == ' '
    ensures DigitPrefix(digits + rest) == digits
  {
    if digits != [] {
      assert (digits + rest)[1..] == digits[1..] + rest;
      DigitPrefixStopsAtSpace(digits[1..], rest);
    }
  }

  /**
   `formatDeletionTime`: "Just now" under a minute, otherwise the number of whole
   minutes, hours or days elapsed, in the largest unit that is at least one, with
   the unit in the plural exactly when that number is not one.
   */
  function FormatDeletionTime(d: DeletedTodo, clock: Clock): (r: string)
    ensures DeletedTime(d, clock).None? ==> r == NaNDaysText()
    ensures DeletedTime(d, clock).Some? ==>
      var diff := clock.now - DeletedTime(d, clock).value;
      (diff < MinuteMs ==> r == JustNowText())
      && (MinuteMs <= diff < HourMs ==> ShowsCount(r, diff / MinuteMs, Minute))
      && (HourMs <= diff < DayMs ==> ShowsCount(r, diff / HourMs, Hour))
      && (DayMs <= diff ==> ShowsCount(r, diff / DayMs, Day))
  {
    AgoText(Elapsed(d, clock))
  }

  /**
   The text is the decimal digits of `n` followed by " <unit> ago", with the unit in
   the plural exactly when `n` is not one.
   */
  predicate ShowsCount(r: string, n: nat, u: Unit) {
    DigitPrefix(r) == Decimal(n) && DigitsValue(DigitPrefix(r)) == n && r[|DigitPrefix(r)|..] == Tail(n, u)
  }

  /**
   `getDaysUntilExpiry`: seven minus the whole days elapsed, never below zero; None
   stands for the NaN an unreadable stamp gives.
   */
  function DaysUntilExpiry(d: DeletedTodo, clock: Clock): (r: Option<int>)
    ensures r.None? <==> DeletedTime(d, clock).None?
    ensures r.Some? ==> r.value >= 0
    ensures r.Some? ==> var diff := clock.now - DeletedTime(d, clock).value;
      (r.value > 0 <==> diff < ExpiryMs)
      && (diff >= 0 ==> r.value <= ExpiryDays)
      && (r.value > 0 ==> (ExpiryDays - r.value) * DayMs <= diff < (ExpiryDays - r.value + 1) * DayMs)
  {
    match DeletedTime(d, clock)
    case None => None
    case Some(t) => Some(AtLeastZero(ExpiryDays - (clock.now - t) / DayMs))
  }

  /** The expiry note under an entry. */
  datatype Expiry = ExpiresIn(days: nat) | ExpiresToday

  /** `daysLeft > 0 ? … : 'Expires today'`; NaN is not greater than zero. */
  function ExpiryNote(daysLeft: Option<int>): (r: Expiry)
    ensures r.ExpiresIn? <==> daysLeft.Some? && daysLeft.value > 0
    ensures r.ExpiresIn? ==> r.days == daysLeft.value
  {
    match daysLeft
    case Some(v) => if v > 0 then ExpiresIn(v) else ExpiresToday
    case None => ExpiresToday
  }

  /** The text of the expiry note. */
  function ExpiryText(e: Expiry): (r: string)
    ensures e.ExpiresToday? ==> r == "Expires today"
    ensures e.ExpiresIn? ==> ShowsDays(r, e.days)
    ensures e.ExpiresIn? ==>
      |r| > 11 && DigitPrefix(r[11..]) == Decimal(e.days)
      && (r[|r| - 1] == 's' <==> e.days != 1)
  {
    match e
    case ExpiresIn(n) => ExpiresInText(n)
    case ExpiresToday => "Expires today"
  }

  /**
   The text is "Expires in " followed by the decimal digits of `n` and the word
   "day", in the plural exactly when `n` is not one.
   */
  predicate ShowsDays(r: string, n: nat) {
    |r| > 11 && r[..11] == "Expires in "
    && DigitsValue(DigitPrefix(r[11..])) == n
    && r[11 + |DigitPrefix(r[11..])|..] == DaysWord(n)
  }

  /** The words after the day count. */
  function DaysWord(n: nat): (w: string)
    ensures |w| >= 4 && w[0] == ' ' && (w[|w| - 1] == 's' <==> n != 1)
  {
    var w := " day" + Plural(n);
    assert w[3] == 'y';
    w
  }

  /** `Expires in ${n} day${n === 1 ? '' : 's'}`. */
  function ExpiresInText(n: nat): (r: string)
    ensures ShowsDays(r, n)
    ensures |r| > 11 && DigitPrefix(r[11..]) == Decimal(n)
    ensures r[|r| - 1] == 's' <==> n != 1
  {
    var head := "Expires in ";
    var rest := DaysWord(n);
    CountAfterHead(head, n, rest);
    var r := head + (Decimal(n) + rest);
    assert |head| == 11;
    assert r[|r| - 1] == rest[|rest| - 1];
    r
  }

  /** A count printed between a fixed head and a tail that starts with a space reads back. */
  lemma CountAfterHead(head: string, n: nat, rest: string)
    requires rest != [] && rest[0] == ' '
    ensures var r := head + (Decimal(n) + rest);
      r[..|head|] == head && r[|head|..] == Decimal(n) + rest
      && DigitPrefix(r[|head|..]) == Decimal(n)
      && r[|head| + |Decimal(n)|..] == rest
  {
    DigitPrefixStopsAtSpace(Decimal(n), rest);
    var r := head + (Decimal(n) + rest);
    assert r[..|head|] == head;
    assert r[|head|..] == Decimal(n) + rest;
    assert r[|head| + |Decimal(n)|..] == rest;
  }

  /** The count badge: hidden at zero, capped at "99+". */
  function Badge(count: int): (r: Option<string>)
    ensures r.None? <==> count <= 0
    ensures r == Some("99+") <==> count > 99
    ensures 0 < count <= 99 ==>
      r.Some? && IsDigits(r.value) && DigitsValue(r.value) == count && 1 <= |r.value| <= 2
  {
    if count <= 0 then None
    else if count > 99 then Some("99+")
    else
      var text := Decimal(count);
      assert count >= 10 ==> Decimal(count) == Decimal(count / 10) + [DigitChar(count % 10)];
      assert !IsDigits("99+") by { assert "99+"[2] == '+'; }
      Some(text)
  }

  /** The trash store's restore, as the step Restore All repeats. */
  function Restorer(env: Env): (DeletedTodo, Slots) -> Restored {
    (d: DeletedTodo, s: Slots) => RestoreDeleted(d, s, env)
  }

  /**
   The reference meaning of Restore All, for any restore step: restore the copied
   entries front to back, each against the storage the previous one left; a
   successful restore that returns a todo hands it on when the panel has a listener.
   */
  function RestoreWith(entries: seq<DeletedTodo>, slots: Slots, restore: (DeletedTodo, Slots) -> Restored, listening: bool)
    : (r: (seq<Todo>, Slots))
    ensures |r.0| <= |entries|
    ensures !listening ==> r.0 == []
    decreases |entries|
  {
    if entries == [] then ([], slots)
    else
      var first := restore(entries[0], slots);
      var rest := RestoreWith(entries[1..], first.slots, restore, listening);
      if first.success && first.todo.Some? && listening then ([first.todo.value] + rest.0, rest.1) else rest
  }

  /** Restore All over the trash store's restore. */
  function RestoreEach(entries: seq<DeletedTodo>, slots: Slots, env: Env, listening: bool): (r: (seq<Todo>, Slots))
    ensures |r.0| <= |entries|
    ensures !listening ==> r.0 == []
  {
    RestoreWith(entries, slots, Restorer(env), listening)
  }

  /** One step of Restore All: the first entry's restore, then the rest. */
  lemma RestoreEachStep(entries: seq<DeletedTodo>, slots: Slots, env: Env, listening: bool)
    requires entries != []
    ensures var first := RestoreDeleted(entries[0], slots, env);
      var rest := RestoreEach(entries[1..], first.slots, env, listening);
      RestoreEach(entries, slots, env, listening)
        == if first.success && listening then ([first.todo.value] + rest.0, rest.1) else rest
  {
    assert Restorer(env)(entries[0], slots) == RestoreDeleted(entries[0], slots, env);
  }

  /** Every todo Restore All hands on is a listed entry with its deletion stamp removed. */
  lemma {:induction false} RestoreEachHandsEntries(entries: seq<DeletedTodo>, slots: Slots, env: Env, listening: bool)
    ensures forall t | t in RestoreEach(entries, slots, env, listening).0 ::
      exists d | d in entries :: t == WithoutDeletedAt(d)
    decreases |entries|
  {
    if entries != [] {
      RestoreEachStep(entries, slots, env, listening);
      var first := RestoreDeleted(entries[0], slots, env);
      var rest := RestoreEach(entries[1..], first.slots, env, listening);
      RestoreEachHandsEntries(entries[1..], first.slots, env, listening);
      forall t | t in RestoreEach(entries, slots, env, listening).0
        ensures exists d | d in entries :: t == WithoutDeletedAt(d)
      {
        if t in rest.0 {
          var d :| d in entries[1..] && t == WithoutDeletedAt(d);
          assert d in entries;
        } else {
          assert t == WithoutDeletedAt(entries[0]);
        }
      }
    }
  }

  /**
   The loop of `handleRestoreAll` after the confirmation, for any restore step:
   returns the number of restored todos the success message reports, the todos
   handed to the list screen in order, and the storage afterwards.
   */
  method RestoreAllWith(listed: seq<DeletedTodo>, slots: Slots, restore: (DeletedTodo, Slots) -> Restored, listening: bool)
    returns (count: nat, handed: seq<Todo>, after: Slots)
    ensures count == |handed| <= |listed|
    ensures (handed, after) == RestoreWith(listed, slots, restore, listening)
    ensures !listening ==> count == 0
  {
    count := 0;
    handed := [];
    after := slots;
    var i := 0;
    ghost var goal := RestoreWith(listed, slots, restore, listening);
    assert listed[i..] == listed;
    assert handed + goal.0 == goal.0;
    while i < |listed|
      invariant 0 <= i <= |listed|
      invariant count == |handed| <= i
      invariant !listening ==> handed == []
      invariant var rest := RestoreWith(listed[i..], after, restore, listening);
        (handed + rest.0, rest.1) == goal
    {
      assert listed[i..][1..] == listed[i + 1..];
      var result := restore(listed[i], after);
      ghost var rest := RestoreWith(listed[i + 1..], result.slots, restore, listening);
      after := result.slots;
      if result.success && result.todo.Some? && listening {
        assert handed + ([result.todo.value] + rest.0) == (handed + [result.todo.value]) + rest.0;
        handed := handed + [result.todo.value];
        count := count + 1;
      }
      i := i + 1;
    }
    assert listed[i..] == [];
    assert handed + [] == handed;
  }

  /** `handleRestoreAll` after the confirmation, over the trash store's restore. */
  method RestoreAll(listed: seq<DeletedTodo>, slots: Slots, env: Env, listening: bool)
    returns (count: nat, handed: seq<Todo>, after: Slots)
    ensures count == |handed| <= |listed|
    ensures (handed, after) == RestoreEach(listed, slots, env, listening)
    ensures !listening ==> count == 0
  {
    count, handed, after := RestoreAllWith(listed, slots, Restorer(env), listening);
  }

  /**
   What the list screen ends up holding when Restore All hands it `handed`, as the
   code is written: every call of `restoreTodo` checks and extends the same list the
   screen held when the panel's button was pressed, and each call replaces the
   screen's list, so the last call that appends wins.
   */
  function ListAfterRestoresAsWritten(held: seq<Todo>, handed: seq<Todo>): (r: seq<Todo>)
    ensures r == held || (|r| == |held| + 1 && r[..|held|] == held && r[|held|] in handed)
    decreases |handed|
  {
    if handed == [] then held
    else
      var last := handed[|handed| - 1];
      if HasKey(held, TodoId, last.id) then ListAfterRestoresAsWritten(held, handed[..|handed| - 1])
      else
        assert (held + [last])[..|held|] == held;
        held + [last]
  }

  /** The intended result: each restore extends the list the previous one produced. */
  function ListAfterRestores(held: seq<Todo>, handed: seq<Todo>): (r: seq<Todo>)
    ensures |held| <= |r| <= |held| + |handed|
    ensures r[..|held|] == held
    ensures forall t | t in handed :: HasKey(r, TodoId, t.id)
    ensures forall t | t in r :: t in held || t in handed
    decreases |handed|
  {
    if handed == [] then held
    else
      var next := TodoList.RestoreTodo(held, handed[0]);
      var r := ListAfterRestores(next, handed[1..]);
      assert r[..|held|] == held by {
        assert r[..|next|] == next;
        assert next[..|held|] == held;
      }
      forall t | t in handed ensures HasKey(r, TodoId, t.id) {
        if t == handed[0] {
          var k :| 0 <= k < |next| && TodoId(next[k]) == t.id;
          assert r[k] == next[k];
        } else {
          assert t in handed[1..];
        }
      }
      r
  }
}

=== FILE: trash_panel_laws.dfy ===
/**
 Properties of the trash panel: the "ago" text loses nothing of its classification,
 the expiry note agrees with the store's seven-day window, the badge tells counts
 apart up to its cap, Restore All empties the trash of what it restored, and the
 list the screen ends up with after Restore All.
 */
module TrashPanelLaws {
  import opened Wrappers
  import opened Seqs
  import opened Types
  import opened Text
  import opened Json
  import opened Storage
  import opened TrashStore
  import TrashLaws
  import TodoList
  import TodoListLaws
  import opened TrashPanel

  /** Different classifications show different texts, so the text can be read back. */
  lemma AgoTextInjective(a: Ago, b: Ago)
    requires AgoText(a) == AgoText(b)
    ensures a == b
  {
    var ta := AgoText(a);
    if a.Since? && b.Since? {
      assert Decimal(a.n) == Decimal(b.n);
      var prefix := Decimal(a.n);
      assert ta[|prefix| + 1] == AgoText(b)[|prefix| + 1];
    }
  }

  /** A shown text pins down both the count and the unit. */
  lemma ShowsCountFixesUnit(r: string, n: nat, u: Unit, m: nat, v: Unit)
    requires ShowsCount(r, n, u) && ShowsCount(r, m, v)
    ensures n == m && u == v
  {
    assert Tail(n, u)[1] == Tail(m, v)[1];
  }

  /** Different expiry notes show different texts. */
  lemma ExpiryTextInjective(e: Expiry, f: Expiry)
    requires ExpiryText(e) == ExpiryText(f)
    ensures e == f
  {
  }

  /** Every entry the read path lists carries an "expires in" note, never "Expires today". */
  lemma ListedEntryNeverExpiresToday(slots: Slots, env: Env, d: DeletedTodo)
    requires d in ReadTrash(slots, env).entries
    ensures ExpiryNote(DaysUntilExpiry(d, env.clock)).ExpiresIn?
    ensures DeletedTime(d, env.clock).value <= env.clock.now ==>
      1 <= ExpiryNote(DaysUntilExpiry(d, env.clock)).days <= ExpiryDays
  {
    assert IsRecent(d, env.clock);
  }

  /**
   The two notes under an entry agree: an entry deleted `n` whole days ago (less than
   a day ago counts as zero) expires in `7 - n` days.
   */
  lemma AgoAndExpiryAgree(d: DeletedTodo, clock: Clock)
    requires DeletedTime(d, clock).Some? && DeletedTime(d, clock).value <= clock.now
    ensures var e := Elapsed(d, clock);
      e.Since? && e.unit == Day && e.n < ExpiryDays ==> DaysUntilExpiry(d, clock) == Some(ExpiryDays - e.n)
    ensures var e := Elapsed(d, clock);
      !(e.Since? && e.unit == Day) ==> DaysUntilExpiry(d, clock) == Some(ExpiryDays)
    ensures var e := Elapsed(d, clock);
      e.Since? && e.unit == Day && e.n >= ExpiryDays ==> DaysUntilExpiry(d, clock) == Some(0)
  {
    var diff := clock.now - DeletedTime(d, clock).value;
    var e := Elapsed(d, clock);
    var v := DaysUntilExpiry(d, clock).value;
    if e.Since? && e.unit == Day && e.n < ExpiryDays {
      assert e.n * DayMs <= diff < e.n * DayMs + DayMs;
      assert diff / DayMs == e.n by {
        DivFromBounds(diff, DayMs, e.n);
      }
    } else if !(e.Since? && e.unit == Day) {
      assert 0 <= diff < DayMs;
      assert diff / DayMs == 0 by {
        DivFromBounds(diff, DayMs, 0);
      }
    } else {
      assert diff >= ExpiryDays * DayMs;
    }
  }

  /** Floor division by a day is pinned down by the bounds of the quotient. */
  lemma DivFromBounds(x: int, m: int, q: int)
    requires m == DayMs
    requires q * m <= x < q * m + m
    ensures x / m == q
  {
    var d := x / DayMs;
    assert x == d * DayMs + x % DayMs;
  }

  /** Counts the badge shows differently are different; only the cap merges counts. */
  lemma BadgeDistinguishes(a: int, b: int)
    requires Badge(a) == Badge(b)
    ensures a == b || (a <= 0 && b <= 0) || (a > 99 && b > 99)
  {
  }

  /** A restore leaves nothing in the trash that the read path did not list before. */
  lemma RestoreShrinksLog(entry: DeletedTodo, slots: Slots, env: Env)
    requires Faithful(env.trashJson)
    ensures forall d | d in ReadTrash(RestoreDeleted(entry, slots, env).slots, env).entries ::
      d in ReadTrash(slots, env).entries
  {
    var read := ReadTrash(slots, env);
    var rest := WithoutId(read.entries, entry.id);
    var text := env.trashJson.stringify(Array(rest));
    if env.accepts(read.slots, TrashKey, text) {
      var written := read.slots[TrashKey := text];
      TrashLaws.WrittenLogReadsBack(read.slots, env, rest);
      TrashLaws.ReadOfRecentLog(written, env, rest);
    } else {
      TrashLaws.ReadIsIdempotent(slots, env);
    }
  }

  /**
   After Restore All over the listed entries, with storage that accepts every write,
   the read path lists none of their ids any more.
   */
  lemma {:induction false} RestoreAllEmptiesRestored(entries: seq<DeletedTodo>, slots: Slots, env: Env, listening: bool)
    requires Faithful(env.trashJson)
    requires Unlimited(env.accepts)
    ensures var after := RestoreEach(entries, slots, env, listening).1;
      forall d | d in entries :: !HasKey(ReadTrash(after, env).entries, DeletedId, d.id)
    decreases |entries|
  {
    if entries != [] {
      var first := RestoreDeleted(entries[0], slots, env);
      var after := RestoreEach(entries, slots, env, listening).1;
      assert after == RestoreEach(entries[1..], first.slots, env, listening).1;
      RestoreAllEmptiesRestored(entries[1..], first.slots, env, listening);
      TrashLaws.RestoredIdLeavesLog(entries[0], slots, env);
      StaysAbsent(entries[1..], first.slots, env, listening, entries[0].id);
      forall d | d in entries ensures !HasKey(ReadTrash(after, env).entries, DeletedId, d.id) {
        if d != entries[0] {
          assert d in entries[1..];
        }
      }
    }
  }

  /** An id the read path does not list stays unlisted after one restore. */
  lemma AbsentAfterRestore(entry: DeletedTodo, slots: Slots, env: Env, id: int)
    requires Faithful(env.trashJson)
    requires !HasKey(ReadTrash(slots, env).entries, DeletedId, id)
    ensures !HasKey(ReadTrash(RestoreDeleted(entry, slots, env).slots, env).entries, DeletedId, id)
  {
    RestoreShrinksLog(entry, slots, env);
  }

  /** An id the read path does not list stays unlisted through any number of restores. */
  lemma {:induction false} StaysAbsent(entries: seq<DeletedTodo>, slots: Slots, env: Env, listening: bool, id: int)
    requires Faithful(env.trashJson)
    requires !HasKey(ReadTrash(slots, env).entries, DeletedId, id)
    ensures !HasKey(ReadTrash(RestoreEach(entries, slots, env, listening).1, env).entries, DeletedId, id)
    decreases |entries|
  {
    if entries != [] {
      RestoreEachStep(entries, slots, env, listening);
      var first := RestoreDeleted(entries[0], slots, env);
      AbsentAfterRestore(entries[0], slots, env, id);
      StaysAbsent(entries[1..], first.slots, env, listening, id);
    }
  }

  /**
   With a listener and storage that accepts every write, Restore All hands on every
   listed entry, in order, as the todo it was before deletion.
   */
  lemma {:induction false} RestoreAllHandsEverything(entries: seq<DeletedTodo>, slots: Slots, env: Env)
    requires Unlimited(env.accepts)
    ensures var handed := RestoreEach(entries, slots, env, true).0;
      |handed| == |entries| && forall i | 0 <= i < |entries| :: handed[i] == WithoutDeletedAt(entries[i])
    decreases |entries|
  {
    if entries != [] {
      RestoreEachStep(entries, slots, env, true);
      var first := RestoreDeleted(entries[0], slots, env);
      var rest := RestoreEach(entries[1..], first.slots, env, true).0;
      RestoreAllHandsEverything(entries[1..], first.slots, env);
      assert first.success;
      var handed := RestoreEach(entries, slots, env, true).0;
      assert handed == [WithoutDeletedAt(entries[0])] + rest;
      forall i | 1 <= i < |entries| ensures handed[i] == WithoutDeletedAt(entries[i]) {
        assert handed[i] == rest[i - 1] && entries[1..][i - 1] == entries[i];
      }
    }
  }

  /**
   The lost restores: when Restore All hands two todos that the list does not hold,
   the list as written keeps only the second, while each restore building on the
   previous one keeps both.
   */
  lemma RestoreAllLosesTodosAsWritten()
    ensures var a := Todo(1, "a", false, "t", None);
      var b := Todo(2, "b", false, "t", None);
      ListAfterRestoresAsWritten([], [a, b]) == [b]
      && ListAfterRestores([], [a, b]) == [a, b]
  {
    var a := Todo(1, "a", false, "t", None);
    var b := Todo(2, "b", false, "t", None);
    assert [a, b][..1] == [a];
    assert ListAfterRestoresAsWritten([], [a, b]) == [b];
    RestoresOfNewIdsAppend(a, b);
  }

  /** Two restores of ids the list lacks each append, one after the other. */
  lemma RestoresOfNewIdsAppend(a: Todo, b: Todo)
    requires a.id != b.id
    ensures ListAfterRestores([], [a, b]) == [a, b]
  {
    assert TodoList.RestoreTodo([], a) == [a];
    assert !HasKey([a], TodoId, b.id);
    assert TodoList.RestoreTodo([a], b) == [a, b];
    assert [a, b][1..] == [b] && [b][1..] == [];
  }

  /** The intended restores keep the list's invariant when every handed todo is well stamped. */
  lemma {:induction false} RestoresKeepCoherent(held: seq<Todo>, handed: seq<Todo>)
    requires TodoListLaws.Coherent(held)
    requires forall t | t in handed :: TodoListLaws.StampMatches(t)
    ensures TodoListLaws.Coherent(ListAfterRestores(held, handed))
    decreases |handed|
  {
    if handed != [] {
      TodoListLaws.RestoreKeepsCoherent(held, handed[0]);
      RestoresKeepCoherent(TodoList.RestoreTodo(held, handed[0]), handed[1..]);
    }
  }

  /**
   End to end, corrected: with storage that accepts every write, every entry Restore
   All walks ends up in the list by id and leaves the trash.
   */
  lemma RestoreAllReachesList(held: seq<Todo>, listed: seq<DeletedTodo>, slots: Slots, env: Env)
    requires Faithful(env.trashJson)
    requires Unlimited(env.accepts)
    ensures var r := RestoreEach(listed, slots, env, true);
      forall d | d in listed ::
        HasKey(ListAfterRestores(held, r.0), TodoId, d.id)
        && !HasKey(ReadTrash(r.1, env).entries, DeletedId, d.id)
  {
    var r := RestoreEach(listed, slots, env, true);
    RestoreAllHandsEverything(listed, slots, env);
    RestoreAllEmptiesRestored(listed, slots, env, true);
    forall d | d in listed ensures HasKey(ListAfterRestores(held, r.0), TodoId, d.id) {
      var i :| 0 <= i < |listed| && listed[i] == d;
      assert r.0[i] in r.0;
    }
  }
}

=== FILE: trash_store.dfy ===
/**
 The trash store: the recently-deleted log kept under one key as a JSON array of
 entries. Add, restore, permanent delete and count first run the read path, which
 drops entries seven days old or older (writing the shortened log back only when it
 dropped something) and returns the rest newest first. Cleanup parses the stored
 log before reading and stops with zero when it does not parse; clear only removes
 the key. Adding is idempotent by id and keeps at most fifty entries; restore and
 permanent delete remove every entry with the given id.
 */
module TrashStore {
  import opened Wrappers
  import opened Seqs
  import opened Types
  import opened Json
  import opened Storage

  const TrashKey: string := "recentlyDeletedTodos"
  const ExpiryDays: int := 7
  /** Seven days in milliseconds: 604,800,000. */
  const ExpiryMs: int := ExpiryDays * 24 * 60 * 60 * 1000
  const MaxDeleted: nat := 50

  /** The deletion time of an entry, when its stamp is present, non-empty and parses. */
  function DeletedTime(d: DeletedTodo, clock: Clock): Option<int> {
    match d.deletedAt
    case Some(s) => if s == "" then None else clock.parse(s)
    case None => None
  }

  /** The expiry filter's test: an entry survives when it was deleted less than seven days ago. */
  predicate IsRecent(d: DeletedTodo, clock: Clock) {
    var t := DeletedTime(d, clock);
    t.Some? && clock.now - t.value < ExpiryMs
  }

  /** The sort key of the read path; every entry it sorts has a deletion time. */
  function SortKey(d: DeletedTodo, clock: Clock): int {
    DeletedTime(d, clock).GetOr(0)
  }

  /** `filterRecentTodos`: the recent entries of an array in order, nothing for any other value. */
  function FilterRecent(doc: Json<DeletedTodo>, clock: Clock): (r: seq<DeletedTodo>)
    ensures !doc.Array? ==> r == []
    ensures doc.Array? ==> IsSubsequence(r, doc.items)
    ensures doc.Array? ==> forall d :: d in r <==> d in doc.items && IsRecent(d, clock)
    ensures doc.Array? ==>
      (|r| == |doc.items| <==> forall i | 0 <= i < |doc.items| :: IsRecent(doc.items[i], clock))
    ensures doc.Array? && |r| == |doc.items| ==> r == doc.items
    ensures doc.Array? ==> |r| + ExpiredCount(doc.items, clock) == |doc.items|
    ensures doc.Array? && DistinctBy(doc.items, DeletedId) ==> DistinctBy(r, DeletedId)
  {
    if doc.Array? then
      var keep := d => IsRecent(d, clock);
      FilterKeepsDistinctIf(doc.items, keep);
      RecentPlusExpired(doc.items, clock);
      Filter(doc.items, keep)
    else []
  }

  lemma FilterKeepsDistinctIf(items: seq<DeletedTodo>, keep: DeletedTodo -> bool)
    ensures DistinctBy(items, DeletedId) ==> DistinctBy(Filter(items, keep), DeletedId)
  {
    if DistinctBy(items, DeletedId) {
      FilterKeepsDistinct(items, keep, DeletedId);
    }
  }

  /** How many entries the expiry filter drops, counted one by one. */
  function ExpiredCount(items: seq<DeletedTodo>, clock: Clock): nat {
    if items == [] then 0
    else (if IsRecent(items[0], clock) then 0 else 1) + ExpiredCount(items[1..], clock)
  }

  lemma {:induction false} RecentPlusExpired(items: seq<DeletedTodo>, clock: Clock)
    ensures |Filter(items, d => IsRecent(d, clock))| + ExpiredCount(items, clock) == |items|
  {
    if items != [] {
      RecentPlusExpired(items[1..], clock);
    }
  }

  /** The entries sorted by deletion time, most recent first. */
  function NewestFirst(entries: seq<DeletedTodo>, clock: Clock): (r: seq<DeletedTodo>)
    ensures multiset(r) == multiset(entries)
    ensures forall d :: d in r <==> d in entries
    ensures forall i, j | 0 <= i < j < |r| :: SortKey(r[i], clock) >= SortKey(r[j], clock)
    ensures DistinctBy(entries, DeletedId) ==> DistinctBy(r, DeletedId)
  {
    var key := d => SortKey(d, clock);
    SortKeepsDistinctIf(entries, key);
    SortDesc(entries, key)
  }

  lemma SortKeepsDistinctIf(entries: seq<DeletedTodo>, key: DeletedTodo -> int)
    ensures DistinctBy(entries, DeletedId) ==> DistinctBy(SortDesc(entries, key), DeletedId)
  {
    if DistinctBy(entries, DeletedId) {
      SortKeepsDistinct(entries, key, DeletedId);
    }
  }

  /** How the read path finds the trash slot. */
  datatype Slot =
    | Missing                           // no value, or the empty string
    | Malformed                         // JSON.parse throws
    | NotAList                          // parses, but not to an array
    | Entries(items: seq<DeletedTodo>)  // parses to an array

  function Classify(slots: Slots, env: Env): Slot {
    var raw := GetItem(slots, TrashKey);
    if !Present(raw) then Missing
    else match env.trashJson.parse(raw.value)
      case None => Malformed
      case Some(doc) => if doc.Array? then Entries(doc.items) else NotAList
  }

  /** The log as stored after a read or a write: at most fifty entries, no id twice. */
  ghost predicate WellFormedLog(slots: Slots, env: Env) {
    Classify(slots, env).Entries? ==>
      var items := Classify(slots, env).items;
      DistinctBy(items, DeletedId) && |items| <= MaxDeleted
  }

  /** What an operation returns, and the store as it leaves it. */
  datatype Read = Read(entries: seq<DeletedTodo>, slots: Slots)
  datatype Outcome = Outcome(ok: bool, slots: Slots)
  datatype Counted = Counted(count: nat, slots: Slots)
  datatype Restored = Restored(success: bool, todo: Option<Todo>, slots: Slots)

  /**
   `getRecentlyDeletedTodos`. A parse error, and likewise a refused write-back, lands in
   the catch block, which removes the key and returns nothing.
   */
  function ReadTrash(slots: Slots, env: Env): (r: Read)
    ensures forall d | d in r.entries :: IsRecent(d, env.clock)
    ensures forall i, j | 0 <= i < j < |r.entries| ::
      SortKey(r.entries[i], env.clock) >= SortKey(r.entries[j], env.clock)
    ensures r.slots - {TrashKey} == slots - {TrashKey}
    ensures Classify(slots, env).Missing? || Classify(slots, env).NotAList? ==> r == Read([], slots)
    ensures Classify(slots, env).Malformed? ==> r == Read([], RemoveItem(slots, TrashKey))
    ensures Classify(slots, env).Entries? ==>
      var items := Classify(slots, env).items;
      var kept := FilterRecent(Array(items), env.clock);
      if |kept| == |items| then
        r.slots == slots && multiset(r.entries) == multiset(items)
      else if env.accepts(slots, TrashKey, env.trashJson.stringify(Array(kept))) then
        r.slots == slots[TrashKey := env.trashJson.stringify(Array(kept))]
        && multiset(r.entries) == multiset(kept)
      else
        r == Read([], RemoveItem(slots, TrashKey))
  {
    match Classify(slots, env)
    case Missing => Read([], slots)
    case Malformed => Read([], RemoveItem(slots, TrashKey))
    case NotAList => Read([], slots)
    case Entries(items) =>
      var kept := FilterRecent(Array(items), env.clock);
      if |kept| == |items| then
        Read(NewestFirst(kept, env.clock), slots)
      else
        match SetItem(slots, env.accepts, TrashKey, env.trashJson.stringify(Array(kept)))
        case None => Read([], RemoveItem(slots, TrashKey))
        case Some(written) => Read(NewestFirst(kept, env.clock), written)
  }

  /** The log `add` persists: the new entry first, then the current ones, at most fifty in all. */
  function Prepend(entry: DeletedTodo, entries: seq<DeletedTodo>): (r: seq<DeletedTodo>)
    ensures |r| == if |entries| < MaxDeleted then |entries| + 1 else MaxDeleted
    ensures r[0] == entry
    ensures r[1..] == entries[..|r| - 1]
  {
    Take([entry] + entries, MaxDeleted)
  }

  /** `addRecentlyDeletedTodo`: a no-op success when the id is already in the log. */
  function AddDeleted(todo: Todo, slots: Slots, env: Env): (r: Outcome)
    ensures var read := ReadTrash(slots, env);
      HasKey(read.entries, DeletedId, todo.id) ==> r == Outcome(true, read.slots)
    ensures var read := ReadTrash(slots, env);
      var text := env.trashJson.stringify(
        Array(Prepend(WithDeletedAt(todo, env.clock.iso(env.clock.now)), read.entries)));
      !HasKey(read.entries, DeletedId, todo.id) ==>
        (r.ok <==> env.accepts(read.slots, TrashKey, text))
        && r.slots == if r.ok then read.slots[TrashKey := text] else read.slots
    ensures r.slots - {TrashKey} == slots - {TrashKey}
  {
    var read := ReadTrash(slots, env);
    if HasKey(read.entries, DeletedId, todo.id) then
      Outcome(true, read.slots)
    else
      var entry := WithDeletedAt(todo, env.clock.iso(env.clock.now));
      var text := env.trashJson.stringify(Array(Prepend(entry, read.entries)));
      match SetItem(read.slots, env.accepts, TrashKey, text)
      case None => Outcome(false, read.slots)
      case Some(written) => Outcome(true, written)
  }

  /** `clearRecentlyDeletedTodos`. */
  function ClearDeleted(slots: Slots): (r: Outcome)
    ensures r.ok
    ensures TrashKey !in r.slots && r.slots == slots - {TrashKey}
  {
    Outcome(true, RemoveItem(slots, TrashKey))
  }

  /** The entries whose id differs from `id`, in order. */
  function WithoutId(entries: seq<DeletedTodo>, id: int): (r: seq<DeletedTodo>)
    ensures !HasKey(r, DeletedId, id)
    ensures forall d :: d in r <==> d in entries && d.id != id
    ensures IsSubsequence(r, entries)
    ensures DistinctBy(entries, DeletedId) ==> DistinctBy(r, DeletedId)
    ensures forall d :: multiset(r)[d] == if d.id != id then multiset(entries)[d] else 0
  {
    var keep := (d: DeletedTodo) => d.id != id;
    FilterKeepsDistinctIf(entries, keep);
    FilterCounts(entries, keep);
    var r := Filter(entries, keep);
    assert forall i | 0 <= i < |r| :: r[i] in r;
    r
  }

  /**
   `restoreDeletedTodo`: removes the entry's id from the log and hands back its five
   todo fields. The todo comes from the argument, so it is handed back even when the
   log no longer held that id.
   */
  function RestoreDeleted(entry: DeletedTodo, slots: Slots, env: Env): (r: Restored)
    ensures r.success <==> r.todo.Some?
    ensures r.todo.Some? ==> r.todo.value == WithoutDeletedAt(entry)
    ensures var read := ReadTrash(slots, env);
      var text := env.trashJson.stringify(Array(WithoutId(read.entries, entry.id)));
      (r.success <==> env.accepts(read.slots, TrashKey, text))
      && r.slots == if r.success then read.slots[TrashKey := text] else read.slots
  {
    var read := ReadTrash(slots, env);
    var text := env.trashJson.stringify(Array(WithoutId(read.entries, entry.id)));
    match SetItem(read.slots, env.accepts, TrashKey, text)
    case None => Restored(false, None, read.slots)
    case Some(written) => Restored(true, Some(WithoutDeletedAt(entry)), written)
  }

  /** `permanentlyDeleteTodo`. */
  function PermanentlyDelete(id: int, slots: Slots, env: Env): (r: Outcome)
    ensures var read := ReadTrash(slots, env);
      var text := env.trashJson.stringify(Array(WithoutId(read.entries, id)));
      (r.ok <==> env.accepts(read.slots, TrashKey, text))
      && r.slots == if r.ok then read.slots[TrashKey := text] else read.slots
  {
    var read := ReadTrash(slots, env);
    match SetItem(read.slots, env.accepts, TrashKey, env.trashJson.stringify(Array(WithoutId(read.entries, id))))
    case None => Outcome(false, read.slots)
    case Some(written) => Outcome(true, written)
  }

  /**
   `getDeletedTodosCount`: the length of what the read path returns, leaving the store
   as the read path leaves it.
   */
  function CountDeleted(slots: Slots, env: Env): (r: Counted)
    ensures r.count == |ReadTrash(slots, env).entries| && r.slots == ReadTrash(slots, env).slots
    ensures WellFormedLog(slots, env) ==> r.count <= MaxDeleted
    ensures Classify(slots, env).Entries? ==> r.count <= |Classify(slots, env).items|
    ensures !Classify(slots, env).Entries? ==> r.count == 0
  {
    var read := ReadTrash(slots, env);
    Counted(|read.entries|, read.slots)
  }

  /** `Math.max(0, n)`. */
  function AtLeastZero(n: int): nat {
    if n > 0 then n else 0
  }

  /**
   `cleanupExpiredDeleted`: the stored length before the read path minus the length
   after it. A slot that does not parse makes the first `JSON.parse` throw, so the
   read path never runs and nothing changes.
   */
  function CleanupExpired(slots: Slots, env: Env): (r: Counted)
    ensures Classify(slots, env).Malformed? ==> r == Counted(0, slots)
    ensures Classify(slots, env).Missing? || Classify(slots, env).NotAList? ==> r == Counted(0, slots)
    ensures Classify(slots, env).Entries? ==>
      r.slots == ReadTrash(slots, env).slots
      && r.count == |Classify(slots, env).items| - |ReadTrash(slots, env).entries|
  {
    match Classify(slots, env)
    case Malformed => Counted(0, slots)
    case Entries(items) =>
      var after := ReadTrash(slots, env);
      Counted(AtLeastZero(|items| - |after.entries|), after.slots)
    case _ =>
      var after := ReadTrash(slots, env);
      Counted(AtLeastZero(0 - |after.entries|), after.slots)
  }
}

=== FILE: types.dfy ===
/**
 The records shared by both stores: a live todo, a todo in the trash log, and the
 clock that stamps them. Times are integer milliseconds since the epoch; the ISO-8601
 text of a time and its parsing back are functions the clock supplies.
 */
module Types {
  import opened Wrappers
  import opened Seqs

  /** A task. `completedAt` is absent when the JSON record has no such field. */
  datatype Todo = Todo(
    id: int,
    text: string,
    completed: bool,
    createdAt: string,
    completedAt: Option<string>)

  /**
   A trash-log entry: the five todo fields plus the deletion stamp. The stamp is
   optional because a stored record may lack it; the expiry filter drops such entries.
   */
  datatype DeletedTodo = DeletedTodo(
    id: int,
    text: string,
    completed: bool,
    createdAt: string,
    completedAt: Option<string>,
    deletedAt: Option<string>)

  /**
   The browser's clock: `now` is `Date.now()`, `iso` is `toISOString`, and `parse`
   is `Date.parse`, with None standing for NaN.
   */
  datatype Clock = Clock(now: int, iso: int -> string, parse: string -> Option<int>)

  /** The ISO text of a time parses back to that time. */
  ghost predicate StampsParse(clock: Clock, t: int) {
    clock.iso(t) != "" && clock.parse(clock.iso(t)) == Some(t)
  }

  function TodoId(t: Todo): int { t.id }

  function DeletedId(d: DeletedTodo): int { d.id }

  predicate IsCompleted(t: Todo) { t.completed }

  /** No two todos of the list share an id. */
  ghost predicate UniqueIds(todos: seq<Todo>) {
    DistinctBy(todos, TodoId)
  }

  /** The todo as a trash entry stamped `deletedAt` (`{...todo, deletedAt}`). */
  function WithDeletedAt(t: Todo, deletedAt: string): (d: DeletedTodo)
    ensures d.id == t.id && d.deletedAt == Some(deletedAt)
  {
    DeletedTodo(t.id, t.text, t.completed, t.createdAt, t.completedAt, Some(deletedAt))
  }

  /** The entry's five todo fields, without the deletion stamp. */
  function WithoutDeletedAt(d: DeletedTodo): (t: Todo)
    ensures t.id == d.id
  {
    Todo(d.id, d.text, d.completed, d.createdAt, d.completedAt)
  }

  /** Stamping a todo and stripping the stamp again gives back the same todo. */
  lemma StripUndoesStamp(t: Todo, deletedAt: string)
    ensures WithoutDeletedAt(WithDeletedAt(t, deletedAt)) == t
  {
  }

  /** The completed todos, in list order (`todos.filter(t => t.completed)`). */
  function CompletedTodos(todos: seq<Todo>): (r: seq<Todo>)
    ensures forall t :: t in r <==> t in todos && t.completed
    ensures IsSubsequence(r, todos)
  {
    Filter(todos, IsCompleted)
  }
}

=== FILE: wrappers.dfy ===
/** Optional values: a JavaScript `undefined` or `null` on one side, a present value on the other. */
module Wrappers {

  datatype Option<+T> = None | Some(value: T) {

    /** Returns the value held in Some, or the given default for None. */
    function GetOr(default: T): T {
      match this
      case Some(v) => v
      case None => default
    }
  }
}
